=== FILE: README.md ===
# X-Det-AI front end, modelled in Dafny

X-Det-AI is a Next.js front end for chest X-ray analysis. It sends an
uploaded image to a prediction backend, shows the five most likely
diseases, and lets a signed-in user fetch disease details, save the result
and read back their history. It also has a chat bot, public reviews, and
admin pages for diseases, reviews and a newsletter.

This project models the logic of that front end as pure Dafny functions
over immutable state.

- **Services.** Each service call takes the backend's reply as a parameter
  (`Http.Reply`: a body, or the raw axios error). The axios response
  interceptor of `services/http_service.ts` is applied explicitly by
  `Http.Settle`.
- **Storage.** Browser storage is a string map that may be unavailable
  (`Storage.Store`). When it is unavailable, every access throws.
- **Effects.** Navigation, requests and storage writes are recorded in
  order as an effect trace (`Effects.Effect`).
- **JSON.** The JSON encoding is an abstract codec (`Json.Codec`). Its
  round-trip law (`Json.Lawful`) is a precondition of the lemmas that need
  it.
- **URI encoding.** `encodeURIComponent` is a function parameter of
  `DiseaseService.Env`.
- **Components.** Each React component is a state record with one step
  function per handler, plus a render function where the choice of screen
  is logic.

One module per source file:

| module | source |
|---|---|
| `Http` | services/http_service.ts |
| `PredictionService` | services/prediction_service.ts |
| `SaveResultsService` | services/save_results_service.ts |
| `DiseaseService` | services/disease_service.ts |
| `HistoryService` | services/history_service.ts |
| `ChatService` | services/chat_service.ts |
| `NextAuth` | auth.ts |
| `AuthContext` | context/AuthContext.tsx |
| `AuthCallback` | app/auth-callback/page.tsx |
| `PredictionResultView` | components/PredictionResult.tsx |
| `XRaySlider` | components/XRaySlider.tsx |
| `AllReviews` | components/AllReviewsComponent.tsx |
| `DiseaseForm` | components/admin/DiseaseForm.tsx |
| `MakeReviews` | components/MakeReviewsComponent.tsx |
| `ManageReviews` | components/ManageReviewsComponent.tsx |
| `AdminAccess`, `AdminReviews` | app/admin/review/page.tsx |
| `AdminAccess`, `Newsletter` | app/admin/newsletter/page.tsx |
| `ImageUpload` | components/ImageUpload.tsx |

The other modules are shared:

- `Wrappers`: `Option` and `Result`.
- `Js`: thrown values, truthiness, and `err.message || fallback`.
- `Storage`, `Json` and `Effects`, as described above.
- `Records`: the prediction and disease-details records.

The two session keys are written only after the awaited database save
succeeds (services/disease_service.ts:76-88).

## Model

| member | source | states |
|---|---|---|
| Http.OnRejected | services/http_service.ts:14-22 | An error with a response is replaced by the response body. An error with only a request becomes "No response from server". Anything else passes through unchanged, and the tests run in that order. |
| Http.Settle | services/http_service.ts:12-23 | A reply succeeds exactly when the network replied, with the body unchanged. A rejection is whatever the interceptor produced. |
| Http.InterceptedErrorsArePlain | services/http_service.ts:15-16 | Unless the server's body itself has a `response` field, what the interceptor rejects with has no `response`, so no handler downstream can see the HTTP status. |
| Http.OnRejectedStable | services/http_service.ts:14-22 | The interceptor is idempotent on its own output: applied again to a value it produced that carries no `request` flag, it returns that value unchanged. |
| Storage.GetItem | services/save_results_service.ts:54 | Succeeds exactly when storage is available, and yields the stored value or null. |
| Storage.SetItem | context/AuthContext.tsx:23 | Succeeds exactly when storage is available. It then maps the key to the value and leaves every other key unchanged. |
| Storage.RemoveItem | context/AuthContext.tsx:28 | Succeeds exactly when storage is available. It then removes the key and leaves every other key unchanged. |
| Storage.ReadOrNull | services/save_results_service.ts:52-59 | A read whose throw is caught: it yields a value only for an available store holding the key. |
| Storage.WriteOrKeep | services/disease_service.ts:24-30 | A write whose throw is swallowed: an unavailable store is left as it was. |
| Storage.SetThenGet | context/AuthContext.tsx:16-24 | Reading a key just written yields the written value. |
| Storage.RemoveThenGet | context/AuthContext.tsx:16-29 | Reading a key just removed yields null. |
| PredictionService.Normalize | services/prediction_service.ts:38-46 | The message is `response.data.message`, else the error's message, else the fallback. Status and data come from `error.response`, and are absent for an error without one. Normalising `undefined` or `null` crashes. |
| PredictionService.PredictRequest | services/prediction_service.ts:22-24 | A POST to `/predict-image` carrying the image URL. |
| PredictionService.PredictImage | services/prediction_service.ts:20-48 | Succeeds exactly when the reply has a body with `top_5_diseases`, and returns that body. A body without it gives "Invalid prediction response format". A network failure is normalised with "Failed to process image prediction". |
| PredictionService.ResultRequest | services/prediction_service.ts:52 | A GET to `/predict-image/` followed by the id. |
| PredictionService.GetPredictionResult | services/prediction_service.ts:50-76 | Succeeds exactly when the body has a non-empty `image_url`. Otherwise it gives "Invalid prediction result format", or the normalised network error. |
| PredictionService.PredictionErrorsLoseStatus | services/prediction_service.ts:26-44 | The status 500 attached to an invalid-format throw never reaches the caller: the normalised error has no status and no data. |
| PredictionService.ResultErrorsLoseStatus | services/prediction_service.ts:54-72 | The same holds for the result fetch. |
| PredictionService.ServerMessageSurvives | services/prediction_service.ts:38-41 | A server body's `message` becomes the normalised message: the interceptor hands the body over as the error. |
| SaveResultsService.SaveRanking | services/save_results_service.ts:26-29 | The saved ranking has the input's length and order, and the same disease and probability at every position. |
| SaveResultsService.SaveRequest | services/save_results_service.ts:19-44 | A POST to `/save-result` with `Authorization: Bearer <token>` and a JSON content type. Username, disease and details are copied, top-level `image_url` is the parameter, `disease_details` keeps only disease and details, and the timestamp is the current time. |
| SaveResultsService.SavedPredictionRoundTrip | services/save_results_service.ts:24-30 | Reading the saved ranking back gives the input ranking exactly. |
| SaveResultsService.SaveResultsToDB | services/save_results_service.ts:15-50 | Succeeds exactly when the server replied. Every failure becomes the fixed "Failed to save results to database. Please try again.". |
| SaveResultsService.GetUsernameFromSession | services/save_results_service.ts:52-59 | The stored username exactly when storage is available and holds it, otherwise null. It never throws. |
| SaveResultsService.GetAccessTokenFromLocalStorage | services/save_results_service.ts:61-68 | The same for `access_token` in local storage. |
| DiseaseService.DetailsRequest | services/disease_service.ts:11-15 | A GET to `/disease-details/` followed by the encoded name, `?language=`, and the language. |
| DiseaseService.FetchDiseaseDetails | services/disease_service.ts:11-21 | The reply body on success. Every failure is replaced by "Failed to fetch disease details. Please try again later.". |
| DiseaseService.SaveToSession | services/disease_service.ts:24-38 | With storage available, the key then holds the JSON text and every other key is unchanged. Otherwise storage is unchanged and nothing is thrown. |
| DiseaseService.SavePredictionDataToSession | services/disease_service.ts:24-30 | With storage available `predictionData` holds the prediction's JSON; a refused write changes nothing; `diseaseDetails` is untouched. |
| DiseaseService.SaveDiseaseDetailsToSession | services/disease_service.ts:32-38 | With storage available `diseaseDetails` holds the details' JSON; a refused write changes nothing; `predictionData` is untouched. |
| DiseaseService.ReadFromSession | services/disease_service.ts:40-58 | null for a missing or empty entry or unavailable storage. A non-empty entry yields exactly its parse, which is null when parsing fails. |
| DiseaseService.GetPredictionDataFromSession | services/disease_service.ts:40-48 | null for a missing or empty `predictionData` or refused storage, else exactly the parse of the stored text. |
| DiseaseService.GetDiseaseDetailsFromSession | services/disease_service.ts:50-58 | The same rule for `diseaseDetails`. |
| DiseaseService.SessionRoundTrip | services/disease_service.ts:24-58 | For a lawful JSON codec and available storage, reading back a saved value yields that value. |
| DiseaseService.CachePairRoundTrip | services/disease_service.ts:24-58 | After both cache writes, both getters return what was written: the second write does not disturb the first. |
| DiseaseService.SavePredictionWithDetails | services/disease_service.ts:60-94 | Details are fetched only with a username and a token; otherwise the authentication error is thrown with no effects. An empty ranking throws a TypeError. The effect trace is always a prefix of: detail fetch, DB save, `predictionData` write, `diseaseDetails` write. It succeeds exactly when every step does, and a failure leaves session storage untouched. Errors are rethrown unchanged. |
| DiseaseService.SavedPairReadsBack | services/disease_service.ts:76-88 | After a successful save, the session getters return the prediction and the fetched details. |
| DiseaseService.SavesTopDisease | services/disease_service.ts:72-83 | Both the fetched and the saved disease are `top_5_diseases[0].disease`, and the saved details are the fetched ones. |
| HistoryService.HistoryRequest | services/history_service.ts:31-35 | A GET to `/results/` followed by the username, with a Bearer token. |
| HistoryService.GetHistory | services/history_service.ts:23-42 | A storage throw escapes. A missing or empty username or token gives "No access token found" with no request. Otherwise one request, and its result. |
| HistoryService.SessionUsername | services/history_service.ts:46 | The NextAuth e-mail when non-empty, else the name. |
| HistoryService.FetchHistory | services/history_service.ts:48-51 | Without a NextAuth username, an empty history and no request. Otherwise `getHistory`, whose request uses the session-storage username. |
| HistoryService.HistoryAfterCallback | services/history_service.ts:23-51 | After a successful auth callback, `fetchHistory` sends exactly one request, to `/results/<e-mail>` with the provider's token as Bearer, and settles as that request does. |
| ChatService.Initial | services/chat_service.ts:27 | A new service talks to the local bot. |
| ChatService.SetBotType | services/chat_service.ts:29-31 | The service then talks to the given bot. |
| ChatService.GetBotType | services/chat_service.ts:33-35 | The reported bot is the service's whole state: setting it again changes nothing. |
| ChatService.GetReturnsLastSet | services/chat_service.ts:29-35 | After any non-empty series of `setBotType` calls, `getBotType` returns the last one. |
| ChatService.ProjectLocal | services/chat_service.ts:61-65 | The local bot's answer keeps answer, confidence and follow-up questions, and never a disclaimer. |
| ChatService.SendQuery | services/chat_service.ts:37-46 | Gemini receives only the question. The local bot without a disease throws "Disease is required for local bot" with no request. Otherwise it posts disease and question and projects the reply. |
| ChatService.GeminiIgnoresDisease | services/chat_service.ts:38-39 | With Gemini selected, queries that differ only in the disease behave identically. |
| ChatService.SuggestedQuestionsRequest | services/chat_service.ts:74 | A GET to `/diseases/<disease>/suggested-questions`, with the disease not encoded. |
| NextAuth.LoginToken | auth.ts:15-25 | One login yields `data.access_token`. A rejection, or a reply with no body (reading `access_token` of undefined), fails. |
| NextAuth.SignIn | auth.ts:9-56 | Non-Google accounts are allowed untouched. Google sign-in logs in first; on failure it registers and logs in again, and every request uses the e-mail and the provider account id. Sign-in is refused exactly when the first login fails and then the registration or the second login fails, and a refusal leaves the account without a token. A failed registration sends exactly two requests; after a good registration the token is the second login's. |
| NextAuth.Jwt | auth.ts:57-63 | Copies the account's access token when there is one, and otherwise keeps the token. |
| NextAuth.SessionCallback | auth.ts:64-68 | The session carries the token's access token, and the user is unchanged. |
| NextAuth.Redirect | auth.ts:69-72 | Always `baseUrl` followed by `/auth-callback`, whatever `url` is. |
| NextAuth.SignInTokenReachesSession | auth.ts:25-67 | A token obtained at sign-in reaches the session through `jwt` and `session`, and later `jwt` calls keep it. |
| AuthContext.Mount | context/AuthContext.tsx:15-20 | A stored non-empty username is adopted; otherwise the state stays null. |
| AuthContext.Login | context/AuthContext.tsx:22-25 | Storage is written first, then the state. A storage throw escapes and leaves the state unchanged. |
| AuthContext.Logout | context/AuthContext.tsx:27-30 | The key is removed and the state cleared. Other keys are untouched. |
| AuthContext.UseAuth | context/AuthContext.tsx:39-45 | Outside a provider, "useAuth must be used within an AuthProvider" is thrown. |
| AuthContext.LoginThenLogout | context/AuthContext.tsx:22-30 | Login followed by logout leaves no username, either in the state or in storage. |
| AuthContext.LoginSurvivesRemount | context/AuthContext.tsx:15-25 | A reload restores a non-empty logged-in username from session storage. |
| AuthCallback.Run | app/auth-callback/page.tsx:13-22 | With a session e-mail and token: the token is stored, the user logged in under the e-mail, then navigation to `/`. Otherwise only navigation to `/signin`. With an e-mail and token but unavailable storage the storage error escapes, and an escaping throw comes before any navigation. |
| AuthCallback.CallbackEnablesSave | app/auth-callback/page.tsx:16-17 | After a successful callback, the credential check of `savePredictionWithDetails` passes. |
| PredictionResultView.Render | components/PredictionResult.tsx:25-47 | The error panel exactly when there is a scan error. Nothing exactly when there is no error, no prediction and no scan. Otherwise results, with the spinner while scanning. |
| PredictionResultView.Fallback | components/PredictionResult.tsx:129-142 | The catch path writes `predictionData` first. The empty-ranking TypeError escapes it before any navigation. Otherwise it re-fetches the details, caches them on success, and navigates to the results page in both cases. |
| PredictionResultView.ViewDetailedAnalysis | components/PredictionResult.tsx:125-144 | The click runs the save and falls back on any failure. It ends on the results page exactly when the ranking is non-empty. |
| PredictionResultView.ClickCachesPrediction | components/PredictionResult.tsx:125-137 | With available storage and a non-empty ranking, the prediction is readable from the session after the click, whichever path ran. |
| PredictionResultView.ClickCachesDetails | components/PredictionResult.tsx:125-137 | After a click whose detail fetch succeeded on either path, the details are readable from the session. |
| XRaySlider.Next | components/XRaySlider.tsx:56-60 | No move while animating. Otherwise it locks and advances, from the last slide back to 0. |
| XRaySlider.Prev | components/XRaySlider.tsx:62-66 | No move while animating. Otherwise it locks and steps back, from 0 to the last slide. |
| XRaySlider.GoTo | components/XRaySlider.tsx:68-72 | No move while animating or onto the current slide. Otherwise it locks and jumps to the index. |
| XRaySlider.AnimationEnd | components/XRaySlider.tsx:82-87 | The one-second timeout unlocks and nothing else changes. |
| XRaySlider.Tick | components/XRaySlider.tsx:74-80 | A tick changes nothing while auto-play is off or a move is animating. Otherwise it starts a move to the next slide, `(current + 1) mod 4`, keeps the index in range and leaves auto-play on. |
| XRaySlider.ToggleAutoPlay | components/XRaySlider.tsx:199 | Flips auto-play only. |
| XRaySlider.NextThenPrev | components/XRaySlider.tsx:56-66 | Next, then the animation end, then prev restores the slide. |
| XRaySlider.PrevThenNext | components/XRaySlider.tsx:56-66 | Prev, then the animation end, then next restores the slide. |
| XRaySlider.AdvanceWraps | components/XRaySlider.tsx:56-60 | After k completed forward moves the slide is (start + k) mod 4, so four moves return to the start. |
| XRaySlider.RunStaysValid | components/XRaySlider.tsx:56-87 | Under any series of events with in-range dot clicks, the slide index stays within 0..3. |
| AllReviews.ToInt32 | components/AllReviewsComponent.tsx:20 | ECMAScript ToInt32: the value congruent to the input modulo 2^32, within the signed 32-bit range. |
| AllReviews.Byte | components/AllReviewsComponent.tsx:24 | `(hash >> 8i) & 0xFF` lies in 0..255. |
| AllReviews.ToHex | components/AllReviewsComponent.tsx:25 | `toString(16)` gives at least one lower-case hex digit, the digits read back as the number, and there is no leading `0` except for 0 itself. |
| AllReviews.PadHexIsTwoDigits | components/AllReviewsComponent.tsx:25 | For a byte, `('00' + hex).substr(-2)` is exactly two hex digits whose value is the byte. |
| AllReviews.GenerateColorFromString | components/AllReviewsComponent.tsx:17-28 | The colour is `#` followed by six lower-case hex digits. Digit pair i spells byte i of the 32-bit hash of the string. |
| AllReviews.Insert | components/AllReviewsComponent.tsx:39-41 | Inserting into a newest-first list keeps it newest-first and adds exactly that element. |
| AllReviews.SortNewestFirst | components/AllReviewsComponent.tsx:39-41 | The result is ordered newest first and is a permutation of the input. |
| AllReviews.SortIsStable | components/AllReviewsComponent.tsx:39-41 | Reviews with equal timestamps keep their input order, as `Array.prototype.sort` does. |
| AllReviews.ItemsPerPage | components/AllReviewsComponent.tsx:44-54 | 4 from 1280 px, 3 from 1024 px, 2 from 768 px, otherwise 1. |
| AllReviews.MaxIndex | components/AllReviewsComponent.tsx:77-78 | `ceil(total / perPage) - 1`: the last page index. It is -1 for an empty list. |
| AllReviews.HandlePrev | components/AllReviewsComponent.tsx:80-82 | The larger of 0 and `index - 1`: one page back from index 1 or more, else page 0. |
| AllReviews.HandleNext | components/AllReviewsComponent.tsx:84-86 | The smaller of `maxIndex` and `index + 1`: one page forward while that stays within `maxIndex`, else `maxIndex`. |
| AllReviews.NavigationStaysInRange | components/AllReviewsComponent.tsx:80-86 | From any index in range, both buttons stay in range. A disabled button would not have moved. |
| AllReviews.PrevNextUndo | components/AllReviewsComponent.tsx:80-86 | Within range and away from the edge they move towards, Prev then Next, and Next then Prev, return to the starting page. |
| AllReviews.Stars | components/AllReviewsComponent.tsx:196-199 | Star i of five is filled exactly when i < rating. |
| AllReviews.FilledStarsCount | components/AllReviewsComponent.tsx:196-199 | The number of filled stars is the rating clamped to 0..5. |
| DiseaseForm.TrimStart | components/admin/DiseaseForm.tsx:45-47 | A suffix of the input. Everything cut off is ECMAScript white space, and the rest does not start with it. |
| DiseaseForm.TrimEnd | components/admin/DiseaseForm.tsx:45-47 | A prefix of the input. Everything cut off is white space, and the rest does not end with it. |
| DiseaseForm.Trim | components/admin/DiseaseForm.tsx:45-47 | `trim()` is the contiguous slice of the input with only white space cut from each end and none left at either end; it is empty exactly for an all-white-space input. |
| DiseaseForm.TrimEmptyIffBlank | components/admin/DiseaseForm.tsx:45-47 | `s.trim() === ''` exactly when every character of `s` is white space. |
| DiseaseForm.AddItem | components/admin/DiseaseForm.tsx:66-68 | One `''` is appended at the end, and the other entries are unchanged. |
| DiseaseForm.ChangeItem | components/admin/DiseaseForm.tsx:70-76 | Only position `index` changes, to `value`, or to `''` when the value is undefined. The length is kept, and an out-of-range index changes nothing. |
| DiseaseForm.RemoveItem | components/admin/DiseaseForm.tsx:78-83 | Exactly position `index` is dropped and the rest keep their order. An out-of-range index changes nothing. |
| DiseaseForm.AddThenRemove | components/admin/DiseaseForm.tsx:66-83 | Removing the entry just added restores the list. |
| DiseaseForm.ChangeThenRestore | components/admin/DiseaseForm.tsx:70-76 | Writing the old value back undoes a change. |
| DiseaseForm.KeepFilled | components/admin/DiseaseForm.tsx:45-47 | The kept entries are exactly the entries that are not blank. |
| DiseaseForm.KeepFilledByTrim | components/admin/DiseaseForm.tsx:45-47 | An entry is sent exactly when it is in the list and its trim is not empty. |
| DiseaseForm.KeepFilledAppend | components/admin/DiseaseForm.tsx:45-47 | Filtering distributes over concatenation, so kept entries keep their form order. |
| DiseaseForm.KeepFilledIdempotent | components/admin/DiseaseForm.tsx:45-47 | Filtering twice is filtering once. |
| DiseaseForm.AddedEntryIsDropped | components/admin/DiseaseForm.tsx:42-68 | The entry "Add" appends never changes the payload. |
| DiseaseForm.Init | components/admin/DiseaseForm.tsx:27-33 | Each of symptoms, treatments and prevention starts as `['']` when absent and is kept, even when empty, when provided. Name and description default to `''`; the form starts idle with no error. |
| DiseaseForm.Payload | components/admin/DiseaseForm.tsx:42-48 | Name and description are sent unchanged. Each list keeps exactly its non-blank entries. |
| DiseaseForm.SaveRequest | components/admin/DiseaseForm.tsx:50-55 | A PUT to `/diseases/<id>` exactly when the record has a truthy id. Otherwise a POST to `/diseases/`. |
| DiseaseForm.Pending | components/admin/DiseaseForm.tsx:38-39 | While the request is in flight the button is disabled and the error cleared, and nothing else changes. |
| DiseaseForm.Submit | components/admin/DiseaseForm.tsx:36-64 | One request with the payload. On success, navigation to `/admin/disease`; on failure, `message \|\| 'Failed to save disease'`. `isSubmitting` ends false, and the lists in the form keep their blank entries. |
| DiseaseForm.SubmitIgnoresAddedEntries | components/admin/DiseaseForm.tsx:42-68 | A list that only grew by "Add" sends the same request. |
| MakeReviews.Submit | components/MakeReviewsComponent.tsx:20-47 | No username gives "You must be logged in to submit a review" before any other check. Rating 0 then gives "Please select a rating". Neither sends a request. On success the review is prepended and content, rating and hover are reset. On failure the error is set and the rest kept. |
| MakeReviews.RequestOnlyWhenReady | components/MakeReviewsComponent.tsx:22-35 | A request is sent exactly when a user is signed in and a star is chosen. |
| MakeReviews.NoDoubleSubmit | components/MakeReviewsComponent.tsx:26-37 | A successful submit resets the rating, so submitting again is refused without a request. |
| MakeReviews.ClickStar | components/MakeReviewsComponent.tsx:71-76 | Clicking star s sets the rating to s, in 1..5, and nothing else. |
| MakeReviews.Hover | components/MakeReviewsComponent.tsx:77 | Entering star s previews s, in 1..5, and changes nothing else. |
| MakeReviews.Leave | components/MakeReviewsComponent.tsx:78 | Leaving the row drops the preview to 0 and changes nothing else. |
| MakeReviews.ClickedStarsShow | components/MakeReviewsComponent.tsx:76-80 | After a click and the cursor leaving, exactly the stars up to the clicked one are filled. |
| MakeReviews.HoverPreviews | components/MakeReviewsComponent.tsx:77-80 | While hovering over star s, exactly the stars up to s are filled, whatever the rating. |
| MakeReviews.NatToString | components/MakeReviewsComponent.tsx:88 | `${n}`: at least one decimal digit, with no leading zero. |
| MakeReviews.DecimalRoundTrip | components/MakeReviewsComponent.tsx:88 | The digits read back as the number they were made from. |
| MakeReviews.RatingLabel | components/MakeReviewsComponent.tsx:88 | `' '` exactly for 0, `1 star` for 1, and `n stars` above 1. |
| MakeReviews.LabelNamesRating | components/MakeReviewsComponent.tsx:88 | The label of a chosen rating starts with digits that read back as the rating. |
| ManageReviews.Mount | components/ManageReviewsComponent.tsx:20-35 | No username means no request, and the panel stays loading. Otherwise the user's reviews replace the list with the error kept, or on failure the list is kept and the error is set to the message (possibly `''`); loading ends either way. |
| ManageReviews.Delete | components/ManageReviewsComponent.tsx:37-49 | No username or a declined confirm does nothing. Otherwise one DELETE; success empties the list, and failure sets the error and keeps the list. |
| ManageReviews.Render | components/ManageReviewsComponent.tsx:51-92 | The first matching case wins: login prompt, then loading with an empty list, then error, then the list. "Delete All" is shown exactly for a non-empty list, and the list scrolls exactly above 3 reviews. |
| ManageReviews.DeleteErrorNonEmpty | components/ManageReviewsComponent.tsx:47 | The delete error text is never empty. |
| ManageReviews.FailedDeleteHidesList | components/ManageReviewsComponent.tsx:46-68 | After a failed delete the panel shows the error instead of the list, which is still held. |
| ManageReviews.ErrorSurvivesDeleteAndReload | components/ManageReviewsComponent.tsx:24-47 | Once set, the error stays non-empty through any further delete, and a re-mount whose fetch succeeds leaves it unchanged. |
| ManageReviews.FailedReloadCanClearError | components/ManageReviewsComponent.tsx:27-28 | A re-mount whose fetch fails with a body carrying no message sets the error to the empty string, which clears it. |
| ManageReviews.DeletedListOffersNoDelete | components/ManageReviewsComponent.tsx:43-74 | After a successful delete the panel shows an empty list with no "Delete All". |
| AdminAccess.ReviewPageAccess | app/admin/review/page.tsx:16-24 | Only an authenticated admin proceeds. Everyone else goes to `/admin/login`. |
| AdminAccess.NewsletterAccess | app/admin/newsletter/page.tsx:20-28 | Unauthenticated users go to `/admin/login`, authenticated non-admins to `/`. Only admins proceed. |
| AdminAccess.PagesAgreeOnAdmission | app/admin/review/page.tsx:16-24 | Both pages admit the same users. They differ only for a signed-in non-admin. |
| AdminAccess.ProvidedFlagsLockOut | context/AuthContext.tsx:4-33 | With the flags the provider actually supplies, both admin pages redirect everyone to `/admin/login`. |
| AdminAccess.IntendedFlagsAdmitAdmins | app/admin/review/page.tsx:10-24 | With flags derived from the signed-in username, exactly signed-in admins reach both pages. |
| AdminReviews.Format | app/admin/review/page.tsx:29-35 | One fetched review: `id` becomes `_id` and every other field is copied. |
| AdminReviews.FormatAll | app/admin/review/page.tsx:29-35 | `id` becomes `_id`. The other fields are copied, and length and order are kept. |
| AdminReviews.Mount | app/admin/review/page.tsx:16-43 | A redirect sends no request. Otherwise one GET, and `loading` ends false whether the fetch succeeds or fails. A failure sets `message \|\| 'Failed to fetch reviews'`. |
| AdminReviews.WithoutId | app/admin/review/page.tsx:50 | Keeps exactly the rows whose `_id` differs from the id. |
| AdminReviews.WithoutIdAppend | app/admin/review/page.tsx:50 | The filter distributes over concatenation, so surviving rows keep their order and number. |
| AdminReviews.WithoutIdIdempotent | app/admin/review/page.tsx:50 | Deleting the same id twice removes nothing more. |
| AdminReviews.DeleteReview | app/admin/review/page.tsx:45-59 | A declined confirm does nothing. Otherwise one DELETE to `/reviews/id/<id>`, or `/reviews/id/undefined` for a missing id. On success the rows with that id are removed, "Review deleted successfully" is shown and the error cleared. On failure the list is kept, the error set and the success message cleared. |
| AdminReviews.DeleteWithoutIdDropsAllIdless | app/admin/review/page.tsx:140 | Deleting a row the server sent without an id requests `/reviews/id/undefined` and, on success, drops every id-less row and only those. |
| AdminReviews.DismissSuccess | app/admin/review/page.tsx:53 | The timer or the close button drops the success bar and nothing else. |
| AdminReviews.DeleteRemovesExactlyThatRow | app/admin/review/page.tsx:49-50 | Every other row survives, and no row with that id remains. |
| AdminReviews.DeleteShowsOneMessage | app/admin/review/page.tsx:49-56 | After a delete, the success message and the error are never both set. |
| ImageUpload.OccursIffSubstring | components/ImageUpload.tsx:32 | The left-to-right scan finds the pattern exactly when it occurs somewhere in the string. |
| ImageUpload.MatchesImage | components/ImageUpload.tsx:32 | The unanchored `image.*` matches exactly the types that contain `image`. |
| ImageUpload.Validate | components/ImageUpload.tsx:30-40 | The type is checked before the size. A file is accepted exactly when its type matches and its size is at most 5·1024·1024 bytes. |
| ImageUpload.Change | components/ImageUpload.tsx:26-50 | The error is cleared, then set by validation. A read starts exactly for an accepted file, and the preview is unchanged until it completes. |
| ImageUpload.Loaded | components/ImageUpload.tsx:43-47 | A string result becomes the preview, and nothing else changes. |
| ImageUpload.Remove | components/ImageUpload.tsx:56-63 | Preview, result, error and the input's file are reset. |
| ImageUpload.PickThenRemove | components/ImageUpload.tsx:26-63 | An accepted file and its read show the preview. Removing it restores the initial state. |
| ImageUpload.SizeBoundary | components/ImageUpload.tsx:37 | Exactly 5 MiB is accepted. One byte more gives "File size must be less than 5MB". |
| ImageUpload.Pending | components/ImageUpload.tsx:74-75 | The in-flight state: `isUploading` true and the error cleared, everything else unchanged. |
| ImageUpload.UploadRequest | components/ImageUpload.tsx:83-90 | A POST to `/images/upload` with `Authorization: Bearer <token>`, and `Bearer null` without a token. |
| ImageUpload.ExpiredSessionMissed | components/ImageUpload.tsx:93-100 | As written, a 401 with a JSON body shows the generic message and never redirects to `/signin`. |
| ImageUpload.Upload | components/ImageUpload.tsx:65-104 | With no preview or file, a no-op. Unauthenticated users are redirected to `/signin` with no request. Otherwise the uploader passes through the in-flight state (`isUploading` true, error cleared), from which any request is sent. A storage throw is caught: the message is set, with no request and no redirect. Otherwise one request: success stores the result, a 401 sets "Session expired. Please sign in again." and redirects, and other failures set the message. Every path but a successful reply keeps the previous result. `isUploading` ends false. |
| ImageUpload.ExpiredSessionHandled | components/ImageUpload.tsx:95-97 | In the corrected version, the same 401 sets the session-expired message and ends on `/signin`. |
| ImageUpload.VersionsAgreeOffUnauthorized | components/ImageUpload.tsx:65-104 | The two versions agree on every input except a 401 or a server body carrying its own `response` field. |
| Newsletter.Fetch | app/admin/newsletter/page.tsx:30-40 | On success the list is replaced. On failure a "Failed to fetch subscribers" toast is shown. `isLoading` ends false either way. |
| Newsletter.Mount | app/admin/newsletter/page.tsx:20-28 | Redirects as `NewsletterAccess` decides, with no request. Otherwise the fetch. |
| Newsletter.HandleChange | app/admin/newsletter/page.tsx:42-45 | Only the named field takes the new value. |
| Newsletter.ChangesCommute | app/admin/newsletter/page.tsx:42-45 | Edits to different fields commute. |
| Newsletter.SendRequest | services/subscribe_service.ts:25-32 | A POST to `/send-newsletter` whose body is the subject and body given. |
| Newsletter.Submit | app/admin/newsletter/page.tsx:47-61 | One POST to `/send-newsletter` carrying the form as it stands. Success clears subject and body and shows a success toast. Failure keeps the form and shows a failure toast. `isSending` ends false. |
| Newsletter.SendsTypedLetter | app/admin/newsletter/page.tsx:42-52 | After typing a subject and a body, the send carries exactly that subject and body. |
| Newsletter.RenderPreview | app/admin/newsletter/page.tsx:192-205 | The preview is shown exactly when subject or body is non-empty. A missing part shows "(No subject)" or "(No content yet)". |
| Newsletter.PreviewAfterSubmit | app/admin/newsletter/page.tsx:192-205 | After a send the preview is empty. After a failed send it is unchanged. |
| Newsletter.PreviewShowsTypedSubject | app/admin/newsletter/page.tsx:192-195 | A typed non-empty subject is the preview's heading. |

## Findings

| source | as written | input that shows it | evidently intended | confidence | as-written member | corrected member |
|---|---|---|---|---|---|---|
| components/ImageUpload.tsx:95 | The 401 test reads `err.response?.status` on the value the axios interceptor rejected with. That value is the server's response body (services/http_service.ts:15-16), which has no `response`. | An axios error with `response = {status: 401, data: {}}`: the handler shows "Failed to upload image. Please try again." and stays on the page. | An expired session (HTTP 401) shows "Session expired. Please sign in again." and redirects to `/signin`. | high; not executed | ImageUpload.UploadAsWritten, ImageUpload.ExpiredSessionMissed | ImageUpload.Upload, ImageUpload.ExpiredSessionHandled |
| app/admin/review/page.tsx:10 | The pages destructure `isAuthenticated` and `isAdmin` from `useAuth()`, but the provider's value holds only `username`, `login` and `logout` (context/AuthContext.tsx:4-33). Both are `undefined`, which is falsy. | A provider whose `username` is `"alice"`: both admin pages redirect to `/admin/login`. | A signed-in admin reaches the pages. | medium; not executed | AdminAccess.ProvidedFlags, AdminAccess.ProvidedFlagsLockOut | AdminAccess.IntendedFlags, AdminAccess.IntendedFlagsAdmitAdmins |

The same missing `isAuthenticated` makes `handleUpload` redirect every user
to `/signin` (components/ImageUpload.tsx:19, 69). The model takes the flags
as inputs, so it describes the pages as their code reads once the context
supplies them.

## Left out

- Rendering markup, CSS classes, icons, animation classes and the
  presentation-only components (Footer, HowItWorks, Header and the rest):
  they hold no logic beyond static markup.
- Thin service wrappers (review, disease CRUD, subscribe, user, auth and
  image-upload services): they are oracles that succeed or fail. Their
  paths appear only where a modelled handler issues the request.
- The users and disease admin list pages and `hooks/useAuth.ts`: they are
  fetch-and-render plumbing, and the users page races two effects.
- Timers, the interval, FileReader, `router.refresh()` and scrolling: each
  becomes an explicit event (`XRaySlider.Tick`, `XRaySlider.AnimationEnd`,
  `ImageUpload.Loaded`, `AdminReviews.DismissSuccess`), or is omitted when
  it only re-renders.
- React re-render timing and the interleaving of concurrent handlers: every
  handler is one atomic step from the state it was called in.
- `console.error` logging: it has no effect on the state.
- Http.OnRejected: on a rejected `undefined` or `null` the interceptor
  would throw a TypeError at `error.response` (services/http_service.ts:15);
  the model passes such a value through unchanged. Likewise, UI handlers
  that read `err.message` on such a value would throw inside their `catch`,
  and `Js.ErrorText` treats it as having no message. Axios never rejects
  with those values.
- AllReviews.GenerateColorFromString: JavaScript numbers are doubles. The
  hash step `code + ((hash << 5) - hash)` is exact below 2^53, and the
  model computes it exactly. Dafny characters are code points, while
  `charCodeAt` reads UTF-16 code units, so strings outside the Basic
  Multilingual Plane hash differently.
- AllReviews.SortNewestFirst: `created_at` is taken as an already parsed
  integer instant. Date parsing and an invalid date (NaN in the
  comparator) are not modelled.
- The review fetch of `AllReviewsComponent` (lines 61-74) and the
  subscriber table of the newsletter page: they are plain fetch-and-render.
- Storage error messages are engine-specific. `Storage.Refused` stands for
  whatever the browser throws.
- JSON serialisation and `encodeURIComponent` are abstract. Their laws are
  preconditions (`Json.Lawful`) where a round trip needs them.
- Probabilities are reals that are only copied. The percentage
  formatting in `PredictionResult.tsx` is presentation.
- Newsletter.Submit: both inputs are `required` (app/admin/newsletter/page.tsx:96 and 112), so the
  browser does not submit an empty subject or body. That check belongs to the browser; the model
  accepts any form.
- DiseaseService.FetchDiseaseDetails: the reply body is taken to be a
  well-formed details object. In the source, a `null` body is returned as
  it is (services/disease_service.ts:16). `diseaseDetails.details` then
  throws a TypeError at services/disease_service.ts:83, before the database
  save, and the catch block rethrows it. A body without `details` would be
  saved with `undefined` details. `DiseaseService.SavePredictionWithDetails`
  and the re-fetch in `PredictionResultView.Fallback` share this assumption.
- AdminReviews.Mount: the reply body is taken to be an array of reviews.
  On any other body, `data.map` (app/admin/review/page.tsx:29) throws a
  TypeError, which the catch block turns into the error text.
- MakeReviews.Submit: `router.refresh()` after a saved review only
  re-renders and is not in the outcome.
- `Newsletter` toasts are recorded as values. Their timing and display
  are not modelled.

=== FILE: admin_access.dfy ===
/** The access check the admin pages run when they mount, on the flags
    `isAuthenticated` and `isAdmin` they take from `useAuth()`. */
module AdminAccess {
  import opened Js
  import AuthContext

  const AdminLogin := "/admin/login"
  const Home := "/"

  /** The two flags a page reads from the auth context. */
  datatype Flags = Flags(isAuthenticated: bool, isAdmin: bool)

  datatype Access = Redirect(url: string) | Proceed

  /** `app/admin/review/page.tsx`: both failed checks lead to the admin
      login. */
  function ReviewPageAccess(f: Flags): (r: Access)
    ensures r == Proceed <==> f.isAuthenticated && f.isAdmin
    ensures r != Proceed ==> r == Redirect(AdminLogin)
  {
    if !f.isAuthenticated then Redirect(AdminLogin)
    else if !f.isAdmin then Redirect(AdminLogin)
    else Proceed
  }

  /** `app/admin/newsletter/page.tsx`: a signed-in user who is not an admin
      is sent home instead. */
  function NewsletterAccess(f: Flags): (r: Access)
    ensures r == Proceed <==> f.isAuthenticated && f.isAdmin
    ensures !f.isAuthenticated ==> r == Redirect(AdminLogin)
    ensures f.isAuthenticated && !f.isAdmin ==> r == Redirect(Home)
  {
    if !f.isAuthenticated then Redirect(AdminLogin)
    else if !f.isAdmin then Redirect(Home)
    else Proceed
  }

  /** The two pages let the same users in; they disagree only on where a
      signed-in non-admin is sent. */
  lemma PagesAgreeOnAdmission(f: Flags)
    ensures ReviewPageAccess(f) == Proceed <==> NewsletterAccess(f) == Proceed
    ensures ReviewPageAccess(f) != NewsletterAccess(f) <==> f.isAuthenticated && !f.isAdmin
  {
  }

  // ---------------------------------------------------------------------
  // What the provider actually supplies

  /** The flags as `context/AuthContext.tsx` provides them: its value holds
      only `username`, `login` and `logout`, so both destructured names
      are `undefined`, which is falsy, whoever is signed in. */
  function ProvidedFlags(c: AuthContext.Context): (r: Flags)
    ensures !r.isAuthenticated && !r.isAdmin
  {
    Flags(false, false)
  }

  /** As written, no one gets past either admin page, not even a user the
      context holds as signed in. */
  lemma ProvidedFlagsLockOut(c: AuthContext.Context)
    ensures ReviewPageAccess(ProvidedFlags(c)) == Redirect(AdminLogin)
    ensures NewsletterAccess(ProvidedFlags(c)) == Redirect(AdminLogin)
  {
  }

  /** The flags the pages evidently expect: signed in means the context
      holds a username; the admin role comes from outside the context. */
  function IntendedFlags(c: AuthContext.Context, isAdmin: bool): (r: Flags)
    ensures r.isAuthenticated <==> Truthy(c.username)
    ensures r.isAdmin == isAdmin
  {
    Flags(Truthy(c.username), isAdmin)
  }

  /** With those flags a signed-in admin reaches both pages, and a visitor
      who is not signed in still reaches neither. */
  lemma IntendedFlagsAdmitAdmins(c: AuthContext.Context, isAdmin: bool)
    ensures ReviewPageAccess(IntendedFlags(c, isAdmin)) == Proceed <==> Truthy(c.username) && isAdmin
    ensures NewsletterAccess(IntendedFlags(c, isAdmin)) == Proceed <==> Truthy(c.username) && isAdmin
  {
  }
}

=== FILE: admin_reviews.dfy ===
/** `app/admin/review/page.tsx`: the admin table of every review, with a
    per-row delete. */
module AdminReviews {
  import opened Wrappers
  import opened Js
  import Http
  import opened Effects
  import AdminAccess

  const ReviewsPath := "/reviews/"
  const ReviewByIdPath := "/reviews/id/"
  const FetchFailed := "Failed to fetch reviews"
  const DeleteFailed := "Failed to delete review"
  const Deleted := "Review deleted successfully"

  /** A review as the server sends it. */
  datatype RawReview = RawReview(id: Option<string>, username: string, content: string, rating: int, createdAt: Option<string>)

  /** A review as the table holds it: the server's `id` becomes `_id`. */
  datatype Review = Review(reviewId: Option<string>, username: string, content: string, rating: int, createdAt: Option<string>)

  /** The record mapping applied to every fetched review. */
  function Format(raw: RawReview): (r: Review)
    ensures r.reviewId == raw.id && r.username == raw.username && r.content == raw.content
    ensures r.rating == raw.rating && r.createdAt == raw.createdAt
  {
    Review(raw.id, raw.username, raw.content, raw.rating, raw.createdAt)
  }

  /** The server's record again, for stating that the mapping loses nothing. */
  function Unformat(r: Review): RawReview {
    RawReview(r.reviewId, r.username, r.content, r.rating, r.createdAt)
  }

  function FormatAll(data: seq<RawReview>): (r: seq<Review>)
    ensures |r| == |data|
    ensures forall i :: 0 <= i < |data| ==> Unformat(r[i]) == data[i]
  {
    seq(|data|, i requires 0 <= i < |data| => Format(data[i]))
  }

  datatype Page = Page(reviews: seq<Review>, loading: bool, error: Option<string>, success: Option<string>)

  const Initial := Page([], true, None, None)

  datatype Outcome = Outcome(page: Page, trace: seq<Effect>)

  /** The mount effect: redirect, or fetch every review; `loading` ends
      after a fetch whatever its outcome, and stays on after a redirect. */
  function Mount(p: Page, flags: AdminAccess.Flags, reply: Http.Reply<seq<RawReview>>): (r: Outcome)
    ensures !(flags.isAuthenticated && flags.isAdmin) ==>
              r == Outcome(p, [Navigate(AdminAccess.AdminLogin)])
    ensures flags.isAuthenticated && flags.isAdmin ==>
              r.trace == [Call(Http.Get, ReviewsPath)] && !r.page.loading && r.page.success == p.success
    ensures flags.isAuthenticated && flags.isAdmin && reply.Replied? ==>
              r.page.reviews == FormatAll(reply.data) && r.page.error == p.error
    ensures flags.isAuthenticated && flags.isAdmin && reply.Raised? ==>
              r.page.reviews == p.reviews && r.page.error == Some(ErrorText(Http.OnRejected(reply.error), FetchFailed))
  {
    match AdminAccess.ReviewPageAccess(flags)
    case Redirect(url) => Outcome(p, [Navigate(url)])
    case Proceed =>
      var call := [Call(Http.Get, ReviewsPath)];
      match Http.Settle(reply)
      case Success(data) => Outcome(p.(reviews := FormatAll(data), loading := false), call)
      case Failure(e) => Outcome(p.(error := Some(ErrorText(e, FetchFailed)), loading := false), call)
  }

  /** `reviews.filter(review => review._id !== reviewId)`. */
  function WithoutId(reviews: seq<Review>, reviewId: Option<string>): (r: seq<Review>)
    ensures |r| <= |reviews|
    ensures forall x :: x in r <==> x in reviews && x.reviewId != reviewId
    ensures (forall i :: 0 <= i < |reviews| ==> reviews[i].reviewId != reviewId) ==> r == reviews
    decreases |reviews|
  {
    if reviews == [] then []
    else
      assert reviews == [reviews[0]] + reviews[1..];
      (if reviews[0].reviewId == reviewId then [] else [reviews[0]]) + WithoutId(reviews[1..], reviewId)
  }

  /** The filter respects concatenation, so the surviving rows keep their
      order and their number: with the clauses above for a one-row list,
      this fixes the result. */
  lemma {:induction false} WithoutIdAppend(a: seq<Review>, b: seq<Review>, reviewId: Option<string>)
    ensures WithoutId(a + b, reviewId) == WithoutId(a, reviewId) + WithoutId(b, reviewId)
    decreases |a|
  {
    if a == [] {
      assert a + b == b;
    } else {
      assert (a + b)[1..] == a[1..] + b;
      WithoutIdAppend(a[1..], b, reviewId);
    }
  }

  /** Deleting the same id twice removes nothing more. */
  lemma {:induction false} WithoutIdIdempotent(reviews: seq<Review>, reviewId: Option<string>)
    ensures WithoutId(WithoutId(reviews, reviewId), reviewId) == WithoutId(reviews, reviewId)
  {
    var once := WithoutId(reviews, reviewId);
    forall i | 0 <= i < |once|
      ensures once[i].reviewId != reviewId
    {
      assert once[i] in once;
    }
  }

  /** `${reviewId}` of an id that may be missing: the template prints
      `undefined`. */
  function IdText(reviewId: Option<string>): string {
    if reviewId.Some? then reviewId.value else "undefined"
  }

  /** `handleDeleteReview`: nothing when the confirm is declined; otherwise
      one DELETE, then either the row is gone with a success message and
      no error, or the list stays with an error and no success message. */
  function DeleteReview(p: Page, reviewId: Option<string>, confirmed: bool, reply: Http.Reply<Value>): (r: Outcome)
    ensures !confirmed ==> r == Outcome(p, [])
    ensures confirmed ==> r.trace == [Call(Http.Delete, ReviewByIdPath + IdText(reviewId))] && r.page.loading == p.loading
    ensures confirmed && reply.Replied? ==>
              r.page.reviews == WithoutId(p.reviews, reviewId) && r.page.success == Some(Deleted) && r.page.error.None?
    ensures confirmed && reply.Raised? ==>
              r.page.reviews == p.reviews && r.page.success.None?
              && r.page.error == Some(ErrorText(Http.OnRejected(reply.error), DeleteFailed))
  {
    if !confirmed then Outcome(p, [])
    else
      var call := [Call(Http.Delete, ReviewByIdPath + IdText(reviewId))];
      match Http.Settle(reply)
      case Success(_) => Outcome(p.(reviews := WithoutId(p.reviews, reviewId), success := Some(Deleted), error := None), call)
      case Failure(e) => Outcome(p.(error := Some(ErrorText(e, DeleteFailed)), success := None), call)
  }

  /** The five-second timer, or the close button, drops the success bar. */
  function DismissSuccess(p: Page): (r: Page)
    ensures r.success.None? && r.(success := p.success) == p
  {
    p.(success := None)
  }

  /** A successful delete removes exactly the rows with that id: every other
      row survives, and no row with that id remains. */
  lemma DeleteRemovesExactlyThatRow(p: Page, reviewId: Option<string>, ok: Value)
    ensures var after := DeleteReview(p, reviewId, true, Http.Replied(ok)).page;
            (forall x :: x in p.reviews && x.reviewId != reviewId ==> x in after.reviews)
            && (forall x :: x in after.reviews ==> x.reviewId != reviewId)
  {
  }

  /** The button passes `review._id!`, which is `undefined` for a row the
      server sent without an id: the request then names `undefined`, and a
      success drops every row without an id, and only those. */
  lemma DeleteWithoutIdDropsAllIdless(p: Page, ok: Value)
    ensures var out := DeleteReview(p, None, true, Http.Replied(ok));
            && out.trace == [Call(Http.Delete, "/reviews/id/undefined")]
            && (forall x :: x in out.page.reviews <==> x in p.reviews && x.reviewId.Some?)
  {
    assert ReviewByIdPath + IdText(None) == "/reviews/id/undefined";
  }

  /** The success message and the error are never shown together after a
      delete. */
  lemma DeleteShowsOneMessage(p: Page, reviewId: Option<string>, reply: Http.Reply<Value>)
    ensures var after := DeleteReview(p, reviewId, true, reply).page;
            after.success.None? || after.error.None?
  {
  }
}

=== FILE: all_reviews.dfy ===
/** `components/AllReviewsComponent.tsx`: the public review carousel. Reviews
    are shown newest first, a page at a time; the page size follows the
    window width; each author gets an avatar colour derived from the name. */
module AllReviews {

  /** `created_at` is compared as a point in time; here it is already the
      parsed integer timestamp. */
  datatype Review = Review(id: string, username: string, content: string, rating: int, createdAt: int)

  // ---------------------------------------------------------------------
  // Avatar colour

  const TwoTo32 := 0x1_0000_0000
  const TwoTo31 := 0x8000_0000

  /** ECMAScript ToInt32 on an integer. */
  function ToInt32(x: int): (r: int)
    ensures -TwoTo31 <= r < TwoTo31
    ensures (r - x) % TwoTo32 == 0
  {
    var m := x % TwoTo32;
    if m >= TwoTo31 then m - TwoTo32 else m
  }

  /** One loop step: `hash = code + ((hash << 5) - hash)`. The shift wraps to
      32 bits; the subtraction and addition do not, so `hash` itself is an
      unbounded integer (exact in a double for any realistic name length). */
  function HashStep(hash: int, code: int): int {
    code + (ToInt32(ToInt32(hash) * 32) - hash)
  }

  /** The hash of a whole string, folding from the left. */
  function Hash(s: string): int
    decreases |s|
  {
    if s == [] then 0 else HashStep(Hash(s[..|s| - 1]), s[|s| - 1] as int)
  }

  /** `(hash >> (8 * i)) & 0xFF`: arithmetic shift of the 32-bit value, low byte. */
  function Byte(hash: int, i: nat): (b: int)
    ensures 0 <= b < 256
  {
    (ToInt32(hash) / Pow256(i)) % 256
  }

  function Pow256(i: nat): (p: int)
    ensures p >= 1
  {
    if i == 0 then 1 else 256 * Pow256(i - 1)
  }

  const HexDigits := "0123456789abcdef"

  function HexDigit(d: int): char
    requires 0 <= d < 16
  {
    HexDigits[d]
  }

  /** `n.toString(16)` for a non-negative integer: lower-case hex digits
      that read back as `n`, with no leading zero except for 0 itself. */
  function ToHex(n: nat): (s: string)
    ensures |s| >= 1
    ensures forall k :: 0 <= k < |s| ==> IsHexDigit(s[k])
    ensures s[0] == '0' ==> n == 0
    ensures HexNumber(s) == n
    decreases n
  {
    HexDigitValue(n % 16);
    if n < 16 then [HexDigit(n)]
    else
      var s := ToHex(n / 16) + [HexDigit(n % 16)];
      assert s[..|s| - 1] == ToHex(n / 16);
      s
  }

  /** The number a string of hex digits spells, most significant first. */
  function HexNumber(s: string): int
    decreases |s|
  {
    if s == [] then 0 else 16 * HexNumber(s[..|s| - 1]) + HexValue(s[|s| - 1])
  }

  /** `('00' + value.toString(16)).substr(-2)`. */
  function PadHex(value: nat): string {
    var s := "00" + ToHex(value);
    s[|s| - 2..]
  }

  /** For a byte, the padding yields exactly its two hex digits. */
  lemma PadHexIsTwoDigits(value: nat)
    requires value < 256
    ensures PadHex(value) == [HexDigit(value / 16), HexDigit(value % 16)]
  {
    if value >= 16 {
      assert ToHex(value / 16) == [HexDigit(value / 16)];
      assert ToHex(value) == [HexDigit(value / 16), HexDigit(value % 16)];
    }
  }

  /** The colour of a hash value, as the second loop builds it. */
  function ColorOf(hash: int): string {
    "#" + PadHex(Byte(hash, 0)) + PadHex(Byte(hash, 1)) + PadHex(Byte(hash, 2))
  }

  /** The value of a hex digit. */
  function HexValue(c: char): int {
    if '0' <= c <= '9' then c as int - '0' as int else c as int - 'a' as int + 10
  }

  predicate IsHexDigit(c: char) {
    '0' <= c <= '9' || 'a' <= c <= 'f'
  }

  lemma HexDigitValue(d: int)
    requires 0 <= d < 16
    ensures IsHexDigit(HexDigit(d)) && HexValue(HexDigit(d)) == d
  {
  }

  /** `generateColorFromString`: '#' and six lower-case hex digits, which
      spell bytes 0, 1 and 2 of the string's hash, low byte first. */
  method GenerateColorFromString(str: string) returns (color: string)
    ensures |color| == 7 && color[0] == '#'
    ensures forall k :: 1 <= k < 7 ==> IsHexDigit(color[k])
    ensures forall i :: 0 <= i < 3 ==>
              16 * HexValue(color[1 + 2 * i]) + HexValue(color[2 + 2 * i]) == Byte(Hash(str), i)
  {
    var hash := 0;
    var i := 0;
    while i < |str|
      invariant 0 <= i <= |str|
      invariant hash == Hash(str[..i])
    {
      assert str[..i + 1][..i] == str[..i];
      hash := HashStep(hash, str[i] as int);
      i := i + 1;
    }
    assert str[..|str|] == str;
    color := "#";
    var j := 0;
    while j < 3
      invariant 0 <= j <= 3
      invariant |color| == 1 + 2 * j && color[0] == '#'
      invariant forall k :: 1 <= k < |color| ==> IsHexDigit(color[k])
      invariant forall m :: 0 <= m < j ==>
                  16 * HexValue(color[1 + 2 * m]) + HexValue(color[2 + 2 * m]) == Byte(hash, m)
    {
      var b := Byte(hash, j);
      PadHexIsTwoDigits(b);
      HexDigitValue(b / 16);
      HexDigitValue(b % 16);
      color := color + PadHex(b);
      j := j + 1;
    }
  }

  // ---------------------------------------------------------------------
  // Newest-first order

  ghost predicate NewestFirst(s: seq<Review>) {
    forall i, j :: 0 <= i < j < |s| ==> s[i].createdAt >= s[j].createdAt
  }

  /** Insert `x` before the first entry that is not newer than it. */
  function Insert(x: Review, sorted: seq<Review>): (r: seq<Review>)
    requires NewestFirst(sorted)
    ensures NewestFirst(r)
    ensures multiset(r) == multiset(sorted) + multiset{x}
    ensures |r| == |sorted| + 1
    ensures r[0] == x || (|sorted| > 0 && r[0] == sorted[0])
    decreases |sorted|
  {
    if sorted == [] || sorted[0].createdAt <= x.createdAt then [x] + sorted
    else
      var rest := Insert(x, sorted[1..]);
      assert multiset(sorted) == multiset{sorted[0]} + multiset(sorted[1..]) by {
        assert sorted == [sorted[0]] + sorted[1..];
      }
      [sorted[0]] + rest
  }

  /** `[...reviews].sort((a, b) => b.created_at - a.created_at)`: a stable
      sort, newest first. */
  function SortNewestFirst(reviews: seq<Review>): (r: seq<Review>)
    ensures NewestFirst(r)
    ensures multiset(r) == multiset(reviews)
    ensures |r| == |reviews|
    decreases |reviews|
  {
    if reviews == [] then []
    else
      assert reviews == [reviews[0]] + reviews[1..];
      Insert(reviews[0], SortNewestFirst(reviews[1..]))
  }

  /** The reviews created at instant `t`, in their order in `s`. */
  function CreatedAt(s: seq<Review>, t: int): seq<Review>
    decreases |s|
  {
    if s == [] then [] else (if s[0].createdAt == t then [s[0]] else []) + CreatedAt(s[1..], t)
  }

  lemma {:induction false} InsertStable(x: Review, sorted: seq<Review>, t: int)
    requires NewestFirst(sorted)
    ensures CreatedAt(Insert(x, sorted), t) == (if x.createdAt == t then [x] else []) + CreatedAt(sorted, t)
    decreases |sorted|
  {
    if sorted == [] || sorted[0].createdAt <= x.createdAt {
      assert ([x] + sorted)[1..] == sorted;
    } else {
      var rest := Insert(x, sorted[1..]);
      InsertStable(x, sorted[1..], t);
      assert ([sorted[0]] + rest)[1..] == rest;
      assert !(sorted[0].createdAt == t && x.createdAt == t);
    }
  }

  /** The sort is stable: reviews with the same timestamp keep their
      relative order. With `NewestFirst` and the multiset equality this
      determines the result completely. */
  lemma {:induction false} SortIsStable(reviews: seq<Review>, t: int)
    ensures CreatedAt(SortNewestFirst(reviews), t) == CreatedAt(reviews, t)
    decreases |reviews|
  {
    if reviews != [] {
      SortIsStable(reviews[1..], t);
      InsertStable(reviews[0], SortNewestFirst(reviews[1..]), t);
    }
  }

  // ---------------------------------------------------------------------
  // Pagination

  /** The breakpoint table: xl, lg, md, and below. */
  function ItemsPerPage(width: int): (n: int)
    ensures 1 <= n <= 4
    ensures width >= 1280 <==> n == 4
    ensures 1024 <= width < 1280 <==> n == 3
    ensures 768 <= width < 1024 <==> n == 2
    ensures width < 768 <==> n == 1
  {
    if width >= 1280 then 4 else if width >= 1024 then 3 else if width >= 768 then 2 else 1
  }

  /** `Math.ceil(total / perPage) - 1`: the last page index. */
  function MaxIndex(total: nat, perPage: int): (m: int)
    requires perPage >= 1
    ensures total == 0 ==> m == -1
    ensures total >= 1 ==> m >= 0 && m * perPage < total <= (m + 1) * perPage
  {
    (total + perPage - 1) / perPage - 1
  }

  /** `Math.max(0, prevIndex - 1)`: one page back, never below the first. */
  function HandlePrev(index: int): (r: int)
    ensures r >= 0 && r >= index - 1 && (r == 0 || r == index - 1)
    ensures index >= 1 ==> r == index - 1
    ensures index <= 1 ==> r == 0
  {
    if index - 1 > 0 then index - 1 else 0
  }

  /** `Math.min(maxIndex, prevIndex + 1)`: one page forward, never past the
      last. */
  function HandleNext(index: int, maxIndex: int): (r: int)
    ensures r <= maxIndex && r <= index + 1 && (r == maxIndex || r == index + 1)
    ensures index + 1 <= maxIndex ==> r == index + 1
    ensures index >= maxIndex ==> r == maxIndex
  {
    if index + 1 < maxIndex then index + 1 else maxIndex
  }

  predicate PrevDisabled(index: int) {
    index == 0
  }

  predicate NextDisabled(index: int, maxIndex: int) {
    index >= maxIndex
  }

  /** Both buttons keep the page index within `[0, maxIndex]`, and a button
      is disabled exactly when clicking it would change nothing. */
  lemma NavigationStaysInRange(index: int, maxIndex: int)
    requires 0 <= index <= maxIndex
    ensures 0 <= HandlePrev(index) <= maxIndex && 0 <= HandleNext(index, maxIndex) <= maxIndex
    ensures PrevDisabled(index) <==> HandlePrev(index) == index
    ensures NextDisabled(index, maxIndex) <==> HandleNext(index, maxIndex) == index
    ensures !PrevDisabled(index) ==> HandlePrev(index) == index - 1
    ensures !NextDisabled(index, maxIndex) ==> HandleNext(index, maxIndex) == index + 1
  {
  }

  /** Away from the edges the two buttons undo each other. */
  lemma PrevNextUndo(index: int, maxIndex: int)
    requires 0 <= index <= maxIndex
    ensures index >= 1 ==> HandleNext(HandlePrev(index), maxIndex) == index
    ensures index < maxIndex ==> HandlePrev(HandleNext(index, maxIndex)) == index
  {
  }

  // ---------------------------------------------------------------------
  // Stars

  /** Which of the five stars are filled for a rating. */
  function Stars(rating: int): (r: seq<bool>)
    ensures |r| == 5
    ensures forall i :: 0 <= i < 5 ==> (r[i] <==> i < rating)
  {
    seq(5, i => i < rating)
  }

  function CountFilled(stars: seq<bool>): nat
    decreases |stars|
  {
    if stars == [] then 0 else (if stars[0] then 1 else 0) + CountFilled(stars[1..])
  }

  /** A row whose filled stars are exactly those below `k` has `k` of them,
      clamped to the row's length. */
  lemma {:induction false} CountPrefix(s: seq<bool>, k: int)
    requires forall i :: 0 <= i < |s| ==> (s[i] <==> i < k)
    ensures CountFilled(s) == if k < 0 then 0 else if k > |s| then |s| else k
    decreases |s|
  {
    if s != [] {
      forall i | 0 <= i < |s[1..]|
        ensures s[1..][i] <==> i < k - 1
      {
        assert s[1..][i] == s[i + 1];
      }
      CountPrefix(s[1..], k - 1);
    }
  }

  /** Filled stars are a prefix, so their number is the rating clamped to 0..5. */
  lemma FilledStarsCount(rating: int)
    ensures CountFilled(Stars(rating)) == if rating < 0 then 0 else if rating > 5 then 5 else rating
  {
    CountPrefix(Stars(rating), rating);
  }
}

=== FILE: auth_callback.dfy ===
/** `app/auth-callback/page.tsx`: after the OAuth redirect, hand the
    provider's identity over to browser storage and the auth context. */
module AuthCallback {
  import opened Wrappers
  import opened Js
  import opened Effects
  import Storage
  import NextAuth
  import AuthContext
  import SaveResultsService
  import DiseaseService

  datatype CallbackOutcome = CallbackOutcome(
    context: AuthContext.Context,
    local: Storage.Store,
    trace: seq<Effect>,
    uncaught: Option<Value>)

  function SessionEmail(s: Option<NextAuth.Session>): Option<string> {
    if s.Some? && s.value.user.Some? then s.value.user.value.email else None
  }

  function SessionToken(s: Option<NextAuth.Session>): Option<string> {
    if s.Some? then s.value.accessToken else None
  }

  /** The effect: with an e-mail and an access token, store the token, log
      in with the e-mail and go home; otherwise go to the sign-in page and
      store nothing. Storage throws escape the effect. */
  function Run(session: Option<NextAuth.Session>, ctx: AuthContext.Context, local: Storage.Store): (r: CallbackOutcome)
    ensures !(Truthy(SessionEmail(session)) && Truthy(SessionToken(session))) ==>
              r == CallbackOutcome(ctx, local, [Navigate("/signin")], None)
    ensures Truthy(SessionEmail(session)) && Truthy(SessionToken(session)) && local.available && ctx.session.available ==>
              && r.uncaught.None?
              && r.trace == [StoreWrite(LocalArea, SaveResultsService.AccessTokenKey),
                             StoreWrite(SessionArea, AuthContext.UsernameKey), Navigate("/")]
              && Storage.ReadOrNull(r.local, SaveResultsService.AccessTokenKey) == SessionToken(session)
              && r.context.username == SessionEmail(session)
    ensures Truthy(SessionEmail(session)) && Truthy(SessionToken(session)) && !(local.available && ctx.session.available) ==>
              r.uncaught == Some(Storage.Refused)
    ensures r.uncaught.Some? ==> forall i :: 0 <= i < |r.trace| ==> !r.trace[i].Navigate?
  {
    var email := SessionEmail(session);
    var token := SessionToken(session);
    if Truthy(email) && Truthy(token) then
      var stored := [StoreWrite(LocalArea, SaveResultsService.AccessTokenKey)];
      match Storage.SetItem(local, SaveResultsService.AccessTokenKey, token.value)
      case Failure(e) => CallbackOutcome(ctx, local, stored, Some(e))
      case Success(local') =>
        var loggedIn := stored + [StoreWrite(SessionArea, AuthContext.UsernameKey)];
        match AuthContext.Login(ctx, email.value)
        case Failure(e) => CallbackOutcome(ctx, local', loggedIn, Some(e))
        case Success(ctx') => CallbackOutcome(ctx', local', loggedIn + [Navigate("/")], None)
    else
      CallbackOutcome(ctx, local, [Navigate("/signin")], None)
  }

  /** The hand-off is what the result orchestrator's guard reads: after a
      successful callback, the session username is the e-mail, the local
      token is the provider's token, and the guard lets a save through. */
  lemma CallbackEnablesSave(session: Option<NextAuth.Session>, ctx: AuthContext.Context, local: Storage.Store)
    requires Truthy(SessionEmail(session)) && Truthy(SessionToken(session))
    requires local.available && ctx.session.available
    ensures var r := Run(session, ctx, local);
            && SaveResultsService.GetUsernameFromSession(r.context.session) == SessionEmail(session)
            && SaveResultsService.GetAccessTokenFromLocalStorage(r.local) == SessionToken(session)
            && DiseaseService.Authenticated(DiseaseService.Browser(r.context.session, r.local))
  {
  }
}

=== FILE: auth_context.dfy ===
/** `context/AuthContext.tsx`: the username held in React state and
    mirrored in session storage under `username`. */
module AuthContext {
  import opened Wrappers
  import opened Js
  import Storage

  const UsernameKey := "username"
  const OutsideProvider := "useAuth must be used within an AuthProvider"

  /** The provider's state together with the session storage it mirrors. */
  datatype Context = Context(username: Option<string>, session: Storage.Store)

  /** The provider's first render: state starts as null. */
  function Initial(session: Storage.Store): Context {
    Context(None, session)
  }

  /** The mount effect: adopt a stored username only if one is stored. */
  function Mount(c: Context): (r: Result<Context, Value>)
    ensures r.Success? <==> c.session.available
    ensures r.Success? ==> r.value.session == c.session
    ensures r.Success? && Truthy(Storage.ReadOrNull(c.session, UsernameKey)) ==>
              r.value.username == Storage.ReadOrNull(c.session, UsernameKey)
    ensures r.Success? && !Truthy(Storage.ReadOrNull(c.session, UsernameKey)) ==> r.value == c
  {
    match Storage.GetItem(c.session, UsernameKey)
    case Failure(e) => Failure(e)
    case Success(stored) => if Truthy(stored) then Success(c.(username := stored)) else Success(c)
  }

  /** `login(u)`: storage first, then state; a storage throw escapes and
      leaves the state as it was. */
  function Login(c: Context, u: string): (r: Result<Context, Value>)
    ensures r.Success? <==> c.session.available
    ensures r.Success? ==> r.value.username == Some(u) && Storage.ReadOrNull(r.value.session, UsernameKey) == Some(u)
    ensures r.Success? ==> forall k :: k != UsernameKey ==>
              Storage.ReadOrNull(r.value.session, k) == Storage.ReadOrNull(c.session, k)
  {
    match Storage.SetItem(c.session, UsernameKey, u)
    case Failure(e) => Failure(e)
    case Success(s) => Success(Context(Some(u), s))
  }

  /** `logout()`: remove the key, clear the state. */
  function Logout(c: Context): (r: Result<Context, Value>)
    ensures r.Success? <==> c.session.available
    ensures r.Success? ==> r.value.username.None? && Storage.ReadOrNull(r.value.session, UsernameKey).None?
    ensures r.Success? ==> forall k :: k != UsernameKey ==>
              Storage.ReadOrNull(r.value.session, k) == Storage.ReadOrNull(c.session, k)
  {
    match Storage.RemoveItem(c.session, UsernameKey)
    case Failure(e) => Failure(e)
    case Success(s) => Success(Context(None, s))
  }

  /** `useAuth()`: the provider's value, or a throw outside any provider. */
  function UseAuth(provided: Option<Context>): (r: Result<Context, Value>)
    ensures provided.None? ==> r == Failure(NewError(OutsideProvider))
    ensures provided.Some? ==> r == Success(provided.value)
  {
    match provided
    case None => Failure(NewError(OutsideProvider))
    case Some(c) => Success(c)
  }

  /** Login then logout leaves no `username` key and a null state. */
  lemma LoginThenLogout(c: Context, u: string)
    requires c.session.available
    ensures var out := Logout(Login(c, u).value);
            out.Success? && out.value.username.None? && UsernameKey !in out.value.session.entries
  {
  }

  /** A login survives a reload: a reloaded provider mounted over the same
      session storage restores the username, unless it was empty. */
  lemma LoginSurvivesRemount(c: Context, u: string)
    requires c.session.available
    ensures var reloaded := Initial(Login(c, u).value.session);
            Mount(reloaded) == Success(if u != "" then reloaded.(username := Some(u)) else reloaded)
  {
  }
}

=== FILE: chat_service.dfy ===
/** `services/chat_service.ts`: a chat client with one piece of state, the
    bot it talks to. */
module ChatService {
  import opened Wrappers
  import opened Js
  import Http

  const DiseaseRequired := "Disease is required for local bot"

  datatype BotType = Local | Gemini

  /** The service instance: only `currentBot` is state. */
  datatype Chat = Chat(currentBot: BotType)

  datatype MedicalQuery = MedicalQuery(question: string, disease: Option<string>)

  datatype ChatResponse = ChatResponse(
    answer: string,
    disclaimer: Option<string>,
    confidence: Option<real>,
    followupQuestions: Option<seq<string>>)

  datatype ChatBody =
    | GeminiBody(question: string)
    | LocalBody(disease: string, query: string)

  /** `new ChatService()`. */
  function Initial(): (c: Chat)
    ensures c.currentBot == Local
  {
    Chat(Local)
  }

  /** `setBotType`: the service now talks to `bot`. */
  function SetBotType(c: Chat, bot: BotType): (r: Chat)
    ensures r.currentBot == bot
  {
    Chat(bot)
  }

  /** `getBotType`: the bot the service currently talks to, which is all of
      its state: setting that bot again changes nothing. */
  function GetBotType(c: Chat): (r: BotType)
    ensures SetBotType(c, r) == c
  {
    c.currentBot
  }

  /** The bot type reads back as the last one set. */
  lemma {:induction false} GetReturnsLastSet(c: Chat, bots: seq<BotType>)
    requires |bots| > 0
    ensures GetBotType(ApplyAll(c, bots)) == bots[|bots| - 1]
    decreases |bots|
  {
    if |bots| > 1 {
      GetReturnsLastSet(SetBotType(c, bots[0]), bots[1..]);
    }
  }

  /** A sequence of `setBotType` calls. */
  function ApplyAll(c: Chat, bots: seq<BotType>): Chat
    decreases |bots|
  {
    if bots == [] then c else ApplyAll(SetBotType(c, bots[0]), bots[1..])
  }

  /** The local bot's reply keeps three fields and never a disclaimer. */
  function ProjectLocal(data: ChatResponse): (r: ChatResponse)
    ensures r.disclaimer.None?
    ensures r.answer == data.answer && r.confidence == data.confidence
    ensures r.followupQuestions == data.followupQuestions
  {
    ChatResponse(data.answer, None, data.confidence, data.followupQuestions)
  }

  datatype QueryOutcome = QueryOutcome(requests: seq<Http.Request<ChatBody>>, result: Result<ChatResponse, Value>)

  /** `sendQuery`, given the reply to whichever request it sends. Errors of
      either bot are rethrown as the interceptor left them. */
  function SendQuery(c: Chat, query: MedicalQuery, reply: Http.Reply<ChatResponse>): (r: QueryOutcome)
    ensures c.currentBot == Gemini ==>
              r == QueryOutcome([Http.Request(Http.Post, "/g_chat", [Http.JsonContentType], GeminiBody(query.question))],
                                Http.Settle(reply))
    ensures c.currentBot == Local && !Truthy(query.disease) ==>
              r == QueryOutcome([], Failure(NewError(DiseaseRequired)))
    ensures c.currentBot == Local && Truthy(query.disease) ==>
              && r.requests == [Http.Request(Http.Post, "/chat", [Http.JsonContentType],
                                             LocalBody(query.disease.value, query.question))]
              && (reply.Replied? ==> r.result == Success(ProjectLocal(reply.data)))
              && (reply.Raised? ==> r.result == Failure(Http.OnRejected(reply.error)))
  {
    match c.currentBot
    case Gemini =>
      QueryOutcome([Http.Request(Http.Post, "/g_chat", [Http.JsonContentType], GeminiBody(query.question))],
                   Http.Settle(reply))
    case Local =>
      if !Truthy(query.disease) then QueryOutcome([], Failure(NewError(DiseaseRequired)))
      else
        var request := Http.Request(Http.Post, "/chat", [Http.JsonContentType],
                                    LocalBody(query.disease.value, query.question));
        match Http.Settle(reply)
        case Success(data) => QueryOutcome([request], Success(ProjectLocal(data)))
        case Failure(e) => QueryOutcome([request], Failure(e))
  }

  /** With Gemini the disease is ignored: any two queries with the same
      question behave alike. */
  lemma GeminiIgnoresDisease(c: Chat, question: string, d1: Option<string>, d2: Option<string>,
                             reply: Http.Reply<ChatResponse>)
    requires c.currentBot == Gemini
    ensures SendQuery(c, MedicalQuery(question, d1), reply) == SendQuery(c, MedicalQuery(question, d2), reply)
  {
  }

  /** `getSuggestedQuestions`: the disease goes into the path unencoded. */
  function SuggestedQuestionsRequest(disease: string): (r: Http.Request<()>)
    ensures r.verb == Http.Get && r.path == "/diseases/" + disease + "/suggested-questions"
  {
    Http.Request(Http.Get, "/diseases/" + disease + "/suggested-questions", [Http.JsonContentType], ())
  }
}

=== FILE: disease_form.dfy ===
/** `components/admin/DiseaseForm.tsx`: the admin form that creates or
    edits a disease entry. Three of its fields are editable lists of
    strings; submitting drops the blank entries and sends the rest. */
module DiseaseForm {
  import opened Wrappers
  import opened Js
  import Http
  import opened Effects

  const DiseasesPath := "/diseases/"
  const ListPage := "/admin/disease"
  const SaveFailed := "Failed to save disease"

  // ---------------------------------------------------------------------
  // String.prototype.trim

  /** ECMAScript's WhiteSpace and LineTerminator code points, the set that
      `trim` strips (sections 12.2 and 12.3 of ECMA-262). */
  predicate IsSpace(c: char) {
    c == '\t' || c == '\n' || c == '\U{000B}' || c == '\U{000C}' || c == '\r' || c == ' '
    || c == '\U{00A0}' || c == '\U{1680}' || ('\U{2000}' <= c <= '\U{200A}')
    || c == '\U{2028}' || c == '\U{2029}' || c == '\U{202F}' || c == '\U{205F}'
    || c == '\U{3000}' || c == '\U{FEFF}'
  }

  /** Every character of `s` is white space (the empty string included). */
  predicate Blank(s: string) {
    forall i :: 0 <= i < |s| ==> IsSpace(s[i])
  }

  /** `s` without its leading white space: a suffix of `s`, everything cut
      off is white space, and what is left does not start with it. */
  function TrimStart(s: string): (r: string)
    ensures |r| <= |s| && r == s[|s| - |r|..]
    ensures forall i :: 0 <= i < |s| - |r| ==> IsSpace(s[i])
    ensures r == [] || !IsSpace(r[0])
    decreases |s|
  {
    if s != [] && IsSpace(s[0]) then TrimStart(s[1..]) else s
  }

  /** `s` without its trailing white space: a prefix of `s`, everything cut
      off is white space, and what is left does not end with it. */
  function TrimEnd(s: string): (r: string)
    ensures |r| <= |s| && r == s[..|r|]
    ensures forall i :: |r| <= i < |s| ==> IsSpace(s[i])
    ensures r == [] || !IsSpace(r[|r| - 1])
    decreases |s|
  {
    if s != [] && IsSpace(s[|s| - 1]) then TrimEnd(s[..|s| - 1]) else s
  }

  /** `s.trim()`: the slice of `s` that starts after its leading white space
      and stops before its trailing white space, so that only white space is
      cut and none is left at either end. */
  function Trim(s: string): (r: string)
    ensures var i := |s| - |TrimStart(s)|;
            i + |r| <= |s| && r == s[i..i + |r|] && Blank(s[..i]) && Blank(s[i + |r|..])
    ensures r == [] || (!IsSpace(r[0]) && !IsSpace(r[|r| - 1]))
    ensures r == [] <==> Blank(s)
  {
    var t := TrimStart(s);
    assert t != [] ==> t[0] == s[|s| - |t|];
    TrimEnd(t)
  }

  /** `s.trim() !== ''` holds exactly for the strings with a character that
      is not white space. */
  lemma TrimEmptyIffBlank(s: string)
    ensures Trim(s) == "" <==> Blank(s)
  {
    var t := TrimStart(s);
    if t != [] {
      assert t[0] == s[|s| - |t|];
    }
  }

  // ---------------------------------------------------------------------
  // The list editors

  /** `handleAddItem`: one empty entry appended at the end. */
  function AddItem(items: seq<string>): (r: seq<string>)
    ensures |r| == |items| + 1 && r[..|items|] == items && r[|items|] == ""
  {
    items + [""]
  }

  /** `handleItemChange`: the entry at `index` becomes `value || ''`; an
      index outside the list matches no entry and changes nothing. */
  function ChangeItem(items: seq<string>, index: int, value: Option<string>): (r: seq<string>)
    ensures |r| == |items|
    ensures forall i :: 0 <= i < |items| && i != index ==> r[i] == items[i]
    ensures 0 <= index < |items| ==> r[index] == (if value.Some? then value.value else "")
  {
    seq(|items|, i requires 0 <= i < |items| => if i == index then Or(value, "") else items[i])
  }

  /** The entries of `items` whose position, counted from `start`, is not
      `index`: the callback of `filter((_, i) => i !== index)`. */
  function KeepOthers(items: seq<string>, index: int, start: int): (r: seq<string>)
    ensures start <= index < start + |items| ==>
              r == items[..index - start] + items[index - start + 1..]
    ensures !(start <= index < start + |items|) ==> r == items
    decreases |items|
  {
    if items == [] then []
    else (if start == index then [] else [items[0]]) + KeepOthers(items[1..], index, start + 1)
  }

  /** `handleRemoveItem`: exactly the entry at `index` is dropped, the rest
      keep their order; an index outside the list changes nothing. */
  function RemoveItem(items: seq<string>, index: int): (r: seq<string>)
    ensures 0 <= index < |items| ==> r == items[..index] + items[index + 1..] && |r| == |items| - 1
    ensures !(0 <= index < |items|) ==> r == items
  {
    KeepOthers(items, index, 0)
  }

  /** Removing the entry just added restores the list. */
  lemma AddThenRemove(items: seq<string>)
    ensures RemoveItem(AddItem(items), |items|) == items
  {
    assert AddItem(items)[..|items|] == items;
  }

  /** Writing back the old value undoes a change. */
  lemma ChangeThenRestore(items: seq<string>, index: int, value: Option<string>)
    requires 0 <= index < |items|
    ensures ChangeItem(ChangeItem(items, index, value), index, Some(items[index])) == items
  {
  }

  // ---------------------------------------------------------------------
  // The submitted payload

  /** The entries whose trim is not empty, in their original order. The
      test is written with `Blank`, which `TrimEmptyIffBlank` shows is the
      same test as an empty trim. */
  function KeepFilled(items: seq<string>): (r: seq<string>)
    ensures |r| <= |items|
    ensures forall x :: x in r ==> x in items && !Blank(x)
    ensures forall x :: x in items && !Blank(x) ==> x in r
    decreases |items|
  {
    if items == [] then []
    else
      var rest := KeepFilled(items[1..]);
      assert forall x :: x in items <==> x == items[0] || x in items[1..];
      if Blank(items[0]) then rest else [items[0]] + rest
  }

  /** An entry reaches the payload exactly when its trim is not empty. */
  lemma KeepFilledByTrim(items: seq<string>, x: string)
    ensures x in KeepFilled(items) <==> x in items && Trim(x) != ""
  {
    TrimEmptyIffBlank(x);
  }

  /** Filtering respects concatenation: the order of the kept entries is
      their order in the form. */
  lemma {:induction false} KeepFilledAppend(a: seq<string>, b: seq<string>)
    ensures KeepFilled(a + b) == KeepFilled(a) + KeepFilled(b)
    decreases |a|
  {
    if a != [] {
      assert (a + b)[1..] == a[1..] + b;
      KeepFilledAppend(a[1..], b);
    } else {
      assert a + b == b;
    }
  }

  /** Filtering twice is filtering once. */
  lemma {:induction false} KeepFilledIdempotent(items: seq<string>)
    ensures KeepFilled(KeepFilled(items)) == KeepFilled(items)
    decreases |items|
  {
    if items != [] {
      var head := if Blank(items[0]) then [] else [items[0]];
      KeepFilledIdempotent(items[1..]);
      KeepFilledAppend(head, KeepFilled(items[1..]));
      if head != [] {
        assert [items[0]][1..] == [];
      }
    }
  }

  /** The empty entry that "Add" appends never reaches the server. */
  lemma AddedEntryIsDropped(items: seq<string>)
    ensures KeepFilled(AddItem(items)) == KeepFilled(items)
  {
    KeepFilledAppend(items, [""]);
    assert [""][1..] == [];
  }

  // ---------------------------------------------------------------------
  // The form

  /** The optional record the form is opened with. The lists are optional
      because nothing checks their presence at run time. */
  datatype InitialData = InitialData(
    id: Option<string>, name: Option<string>, description: Option<string>,
    symptoms: Option<seq<string>>, treatments: Option<seq<string>>, prevention: Option<seq<string>>)

  datatype Form = Form(
    name: string, description: string,
    symptoms: seq<string>, treatments: seq<string>, prevention: seq<string>,
    isSubmitting: bool, error: string)

  /** The body sent to the server. */
  datatype DiseaseData = DiseaseData(
    name: string, description: string,
    symptoms: seq<string>, treatments: seq<string>, prevention: seq<string>)

  /** `given || ['']`: an array is truthy even when empty. */
  function StartList(given: Option<seq<string>>): seq<string> {
    if given.Some? then given.value else [""]
  }

  /** The form's first render. */
  function Init(initial: Option<InitialData>): (r: Form)
    ensures initial.None? ==> r == Form("", "", [""], [""], [""], false, "")
    ensures initial.Some? && initial.value.symptoms.Some? ==> r.symptoms == initial.value.symptoms.value
    ensures initial.Some? && initial.value.symptoms.None? ==> r.symptoms == [""]
    ensures initial.Some? && initial.value.treatments.Some? ==> r.treatments == initial.value.treatments.value
    ensures initial.Some? && initial.value.treatments.None? ==> r.treatments == [""]
    ensures initial.Some? && initial.value.prevention.Some? ==> r.prevention == initial.value.prevention.value
    ensures initial.Some? && initial.value.prevention.None? ==> r.prevention == [""]
    ensures initial.Some? ==> r.name == Or(initial.value.name, "") && r.description == Or(initial.value.description, "")
    ensures !r.isSubmitting && r.error == ""
  {
    match initial
    case None => Form("", "", [""], [""], [""], false, "")
    case Some(d) =>
      Form(Or(d.name, ""), Or(d.description, ""),
           StartList(d.symptoms), StartList(d.treatments), StartList(d.prevention), false, "")
  }

  /** The payload built from the form: name and description verbatim, the
      lists without their blank entries. */
  function Payload(f: Form): (r: DiseaseData)
    ensures r.name == f.name && r.description == f.description
    ensures forall x :: x in r.symptoms <==> x in f.symptoms && !Blank(x)
    ensures forall x :: x in r.treatments <==> x in f.treatments && !Blank(x)
    ensures forall x :: x in r.prevention <==> x in f.prevention && !Blank(x)
  {
    DiseaseData(f.name, f.description, KeepFilled(f.symptoms), KeepFilled(f.treatments), KeepFilled(f.prevention))
  }

  /** `updateDisease(id, data)` when the record has a truthy id, else
      `createDisease(data)`. */
  function SaveRequest(id: Option<string>, data: DiseaseData): (r: Http.Request<DiseaseData>)
    ensures r.body == data
    ensures Truthy(id) <==> r.verb == Http.Put
    ensures Truthy(id) ==> r.path == DiseasesPath + id.value
    ensures !Truthy(id) ==> r.verb == Http.Post && r.path == DiseasesPath
  {
    if Truthy(id) then Http.Request(Http.Put, DiseasesPath + id.value, [], data)
    else Http.Request(Http.Post, DiseasesPath, [], data)
  }

  /** The state rendered while the request is in flight. */
  function Pending(f: Form): (r: Form)
    ensures r.isSubmitting && r.error == ""
    ensures r.(isSubmitting := f.isSubmitting, error := f.error) == f
  {
    f.(isSubmitting := true, error := "")
  }

  datatype SubmitOutcome = SubmitOutcome(form: Form, sent: Http.Request<DiseaseData>, trace: seq<Effect>)

  /** `handleSubmit`: one request, then either the list page or the error
      message; the button is enabled again in both cases and the lists in
      the form keep their blank entries. */
  function Submit(f: Form, id: Option<string>, reply: Http.Reply<Value>): (r: SubmitOutcome)
    ensures r.sent == SaveRequest(id, Payload(f))
    ensures !r.form.isSubmitting
    ensures r.form.(isSubmitting := f.isSubmitting, error := f.error) == f
    ensures reply.Replied? ==>
              r.form.error == "" && r.trace == [Call(r.sent.verb, r.sent.path), Navigate(ListPage)]
    ensures reply.Raised? ==>
              r.form.error == ErrorText(Http.OnRejected(reply.error), SaveFailed)
              && r.trace == [Call(r.sent.verb, r.sent.path)]
  {
    var busy := Pending(f);
    var request := SaveRequest(id, Payload(busy));
    var call := [Call(request.verb, request.path)];
    match Http.Settle(reply)
    case Success(_) => SubmitOutcome(busy.(isSubmitting := false), request, call + [Navigate(ListPage)])
    case Failure(e) =>
      SubmitOutcome(busy.(isSubmitting := false, error := ErrorText(e, SaveFailed)), request, call)
  }

  /** Blank entries the admin added never reach the server: a form whose
      lists only grew by "Add" sends the payload it sent before. */
  lemma SubmitIgnoresAddedEntries(f: Form, id: Option<string>, reply: Http.Reply<Value>)
    ensures Submit(f.(symptoms := AddItem(f.symptoms)), id, reply).sent == Submit(f, id, reply).sent
  {
    AddedEntryIsDropped(f.symptoms);
  }
}

=== FILE: disease_service.dfy ===
/** `services/disease_service.ts`: fetching the details of one disease, the
    session cache of the last prediction and its details, and the
    orchestrator that fetches, saves durably and then caches. */
module DiseaseService {
  import opened Wrappers
  import opened Js
  import opened Records
  import opened Effects
  import Http
  import Storage
  import Json
  import SaveResultsService

  const DefaultLanguage := "en"
  const DetailsFailed := "Failed to fetch disease details. Please try again later."
  const AuthMissing := "User authentication data not found. Please log in again."
  const PredictionKey := "predictionData"
  const DetailsKey := "diseaseDetails"

  /** What the flow needs from the runtime besides storage:
      `encodeURIComponent` and the two JSON codecs. */
  datatype Env = Env(
    encodeUri: string -> string,
    predictionJson: Json.Codec<PredictionResponse>,
    detailsJson: Json.Codec<DiseaseDetails>)

  ghost predicate LawfulEnv(env: Env) {
    Json.Lawful(env.predictionJson) && Json.Lawful(env.detailsJson)
  }

  /** The two storage areas the flow reads and writes. */
  datatype Browser = Browser(session: Storage.Store, local: Storage.Store)

  function DetailsPath(env: Env, name: string, language: string): string {
    "/disease-details/" + env.encodeUri(name) + "?language=" + language
  }

  function DetailsRequest(env: Env, name: string, language: string): (r: Http.Request<()>)
    ensures r.verb == Http.Get
    ensures r.path == "/disease-details/" + env.encodeUri(name) + "?language=" + language
  {
    Http.Request(Http.Get, DetailsPath(env, name, language), [Http.JsonContentType], ())
  }

  /** `fetchDiseaseDetails`, given the reply to `DetailsRequest`: the body
      unchanged, or one fixed error whatever went wrong. */
  function FetchDiseaseDetails(reply: Http.Reply<DiseaseDetails>): (r: Result<DiseaseDetails, Value>)
    ensures reply.Replied? ==> r == Success(reply.data)
    ensures reply.Raised? ==> r == Failure(NewError(DetailsFailed))
  {
    match Http.Settle(reply)
    case Success(d) => Success(d)
    case Failure(_) => Failure(NewError(DetailsFailed))
  }

  /** A session saver: serialise and store; a storage error is logged and
      swallowed, so the saver never throws. */
  function SaveToSession<T>(codec: Json.Codec<T>, session: Storage.Store, key: string, value: T): (r: Storage.Store)
    ensures session.available ==> Storage.ReadOrNull(r, key) == Some(codec.stringify(value))
    ensures !session.available ==> r == session
    ensures forall k :: k != key ==> Storage.ReadOrNull(r, k) == Storage.ReadOrNull(session, k)
  {
    Storage.WriteOrKeep(session, key, codec.stringify(value))
  }

  /** A session getter: null when the key is absent, empty, or storage or
      parsing throws. */
  function ReadFromSession<T>(codec: Json.Codec<T>, session: Storage.Store, key: string): (r: Option<T>)
    ensures !Truthy(Storage.ReadOrNull(session, key)) ==> r.None?
    ensures Truthy(Storage.ReadOrNull(session, key)) ==> r == codec.parse(session.entries[key])
  {
    var data := Storage.ReadOrNull(session, key);
    if Truthy(data) then codec.parse(data.value) else None
  }

  /** `savePredictionDataToSession`: the prediction's JSON under
      `predictionData`; the details entry is left alone, and a refused
      write changes nothing. */
  function SavePredictionDataToSession(env: Env, session: Storage.Store, p: PredictionResponse): (r: Storage.Store)
    ensures session.available ==> Storage.ReadOrNull(r, PredictionKey) == Some(env.predictionJson.stringify(p))
    ensures !session.available ==> r == session
    ensures Storage.ReadOrNull(r, DetailsKey) == Storage.ReadOrNull(session, DetailsKey)
  {
    SaveToSession(env.predictionJson, session, PredictionKey, p)
  }

  /** `saveDiseaseDetailsToSession`: the details' JSON under
      `diseaseDetails`; the prediction entry is left alone, and a refused
      write changes nothing. */
  function SaveDiseaseDetailsToSession(env: Env, session: Storage.Store, d: DiseaseDetails): (r: Storage.Store)
    ensures session.available ==> Storage.ReadOrNull(r, DetailsKey) == Some(env.detailsJson.stringify(d))
    ensures !session.available ==> r == session
    ensures Storage.ReadOrNull(r, PredictionKey) == Storage.ReadOrNull(session, PredictionKey)
  {
    SaveToSession(env.detailsJson, session, DetailsKey, d)
  }

  /** `getPredictionDataFromSession`: null for a missing or empty entry or
      refused storage, else the parse of the stored text. */
  function GetPredictionDataFromSession(env: Env, session: Storage.Store): (r: Option<PredictionResponse>)
    ensures !Truthy(Storage.ReadOrNull(session, PredictionKey)) ==> r.None?
    ensures Truthy(Storage.ReadOrNull(session, PredictionKey)) ==>
              r == env.predictionJson.parse(session.entries[PredictionKey])
  {
    ReadFromSession(env.predictionJson, session, PredictionKey)
  }

  /** `getDiseaseDetailsFromSession`: the same rule for `diseaseDetails`. */
  function GetDiseaseDetailsFromSession(env: Env, session: Storage.Store): (r: Option<DiseaseDetails>)
    ensures !Truthy(Storage.ReadOrNull(session, DetailsKey)) ==> r.None?
    ensures Truthy(Storage.ReadOrNull(session, DetailsKey)) ==>
              r == env.detailsJson.parse(session.entries[DetailsKey])
  {
    ReadFromSession(env.detailsJson, session, DetailsKey)
  }

  /** Saving then reading the same key returns the saved value. */
  lemma {:induction false} SessionRoundTrip<T(!new)>(codec: Json.Codec<T>, session: Storage.Store, key: string, value: T)
    requires Json.Lawful(codec) && session.available
    ensures ReadFromSession(codec, SaveToSession(codec, session, key, value), key) == Some(value)
  {
    var s := SaveToSession(codec, session, key, value);
    assert Storage.ReadOrNull(s, key) == Some(codec.stringify(value));
    assert codec.stringify(value) != "" && codec.parse(codec.stringify(value)) == Some(value);
  }

  /** Round trip of `predictionData` followed by `diseaseDetails`: writing the
      second key does not disturb the first. */
  lemma CachePairRoundTrip(env: Env, session: Storage.Store, p: PredictionResponse, d: DiseaseDetails)
    requires LawfulEnv(env) && session.available
    ensures var s := SaveDiseaseDetailsToSession(env, SavePredictionDataToSession(env, session, p), d);
            GetPredictionDataFromSession(env, s) == Some(p) && GetDiseaseDetailsFromSession(env, s) == Some(d)
  {
    var s1 := SavePredictionDataToSession(env, session, p);
    SessionRoundTrip(env.predictionJson, session, PredictionKey, p);
    SessionRoundTrip(env.detailsJson, s1, DetailsKey, d);
  }

  /** Both identity values are present and non-empty. */
  predicate Authenticated(b: Browser) {
    && Truthy(SaveResultsService.GetUsernameFromSession(b.session))
    && Truthy(SaveResultsService.GetAccessTokenFromLocalStorage(b.local))
  }

  /** The full effect order of a successful run. */
  function SuccessTrace(env: Env, top: string): seq<Effect> {
    [ Call(Http.Get, DetailsPath(env, top, DefaultLanguage)),
      Call(Http.Post, SaveResultsService.SavePath),
      StoreWrite(SessionArea, PredictionKey),
      StoreWrite(SessionArea, DetailsKey) ]
  }

  /** One run of the orchestrator: its effects in order, the session storage
      afterwards, the save request it sent (if any), and how it settled. */
  datatype SaveOutcome = SaveOutcome(
    trace: seq<Effect>,
    session: Storage.Store,
    saved: Option<Http.Request<SaveResultsService.SaveBody>>,
    result: Result<(), Value>)

  /** `savePredictionWithDetails` with the replies to the detail fetch and
      to the save, at clock `now`. An empty ranking is not guarded: reading
      `top_5_diseases[0].disease` throws a `TypeError`, which the catch
      block rethrows like every other error. */
  function SavePredictionWithDetails(
    env: Env, browser: Browser, prediction: PredictionResponse, imageUrl: string,
    detailsReply: Http.Reply<DiseaseDetails>, saveReply: Http.Reply<()>, now: int): (r: SaveOutcome)
    ensures !Authenticated(browser) ==>
              r == SaveOutcome([], browser.session, None, Failure(NewError(AuthMissing)))
    ensures Authenticated(browser) && |prediction.top5| == 0 ==>
              r == SaveOutcome([], browser.session, None, Failure(TypeErrorReading("disease")))
    ensures r.result.Success? <==>
              Authenticated(browser) && |prediction.top5| > 0 && detailsReply.Replied? && saveReply.Replied?
    ensures r.result.Failure? ==> r.session == browser.session
    ensures r.result.Failure? ==>
              r.result.error in {NewError(AuthMissing), TypeErrorReading("disease"),
                                 NewError(DetailsFailed), NewError(SaveResultsService.SaveFailed)}
    ensures |prediction.top5| > 0 ==> r.trace <= SuccessTrace(env, prediction.top5[0].disease)
    ensures r.result.Success? ==> r.trace == SuccessTrace(env, prediction.top5[0].disease)
    ensures r.saved.Some? ==>
              && |prediction.top5| > 0 && detailsReply.Replied?
              && r.saved.value == SaveResultsService.SaveRequest(
                   SaveResultsService.SaveResultParams(
                     SaveResultsService.GetUsernameFromSession(browser.session).value,
                     SaveResultsService.GetAccessTokenFromLocalStorage(browser.local).value,
                     imageUrl, prediction, detailsReply.data,
                     prediction.top5[0].disease, detailsReply.data.details), now)
    ensures r.result.Success? ==>
              r.session == SaveDiseaseDetailsToSession(env,
                             SavePredictionDataToSession(env, browser.session, prediction), detailsReply.data)
  {
    var username := SaveResultsService.GetUsernameFromSession(browser.session);
    var token := SaveResultsService.GetAccessTokenFromLocalStorage(browser.local);
    if !Truthy(username) || !Truthy(token) then
      SaveOutcome([], browser.session, None, Failure(NewError(AuthMissing)))
    else if |prediction.top5| == 0 then
      SaveOutcome([], browser.session, None, Failure(TypeErrorReading("disease")))
    else
      var top := prediction.top5[0].disease;
      var fetched := [Call(Http.Get, DetailsPath(env, top, DefaultLanguage))];
      match FetchDiseaseDetails(detailsReply)
      case Failure(e) => SaveOutcome(fetched, browser.session, None, Failure(e))
      case Success(details) =>
        var params := SaveResultsService.SaveResultParams(
          username.value, token.value, imageUrl, prediction, details, top, details.details);
        var request := SaveResultsService.SaveRequest(params, now);
        var posted := fetched + [Call(Http.Post, request.path)];
        match SaveResultsService.SaveResultsToDB(saveReply)
        case Failure(e) => SaveOutcome(posted, browser.session, Some(request), Failure(e))
        case Success(_) =>
          var cached := SaveDiseaseDetailsToSession(env,
                          SavePredictionDataToSession(env, browser.session, prediction), details);
          SaveOutcome(posted + [StoreWrite(SessionArea, PredictionKey), StoreWrite(SessionArea, DetailsKey)],
                      cached, Some(request), Success(()))
  }

  /** Cache-pair invariant: after a successful run both keys read back as
      what was fetched and saved; after a failed run neither key changed. */
  lemma SavedPairReadsBack(
    env: Env, browser: Browser, prediction: PredictionResponse, imageUrl: string,
    detailsReply: Http.Reply<DiseaseDetails>, saveReply: Http.Reply<()>, now: int)
    requires LawfulEnv(env) && browser.session.available
    ensures var r := SavePredictionWithDetails(env, browser, prediction, imageUrl, detailsReply, saveReply, now);
            && (r.result.Success? ==>
                  && GetPredictionDataFromSession(env, r.session) == Some(prediction)
                  && GetDiseaseDetailsFromSession(env, r.session) == Some(detailsReply.data))
            && (r.result.Failure? ==>
                  && GetPredictionDataFromSession(env, r.session) == GetPredictionDataFromSession(env, browser.session)
                  && GetDiseaseDetailsFromSession(env, r.session) == GetDiseaseDetailsFromSession(env, browser.session))
  {
    var r := SavePredictionWithDetails(env, browser, prediction, imageUrl, detailsReply, saveReply, now);
    if r.result.Success? {
      CachePairRoundTrip(env, browser.session, prediction, detailsReply.data);
    }
  }

  /** The disease fetched and the disease saved are both the first entry of
      the ranking, and the saved details are the fetched ones. */
  lemma SavesTopDisease(
    env: Env, browser: Browser, prediction: PredictionResponse, imageUrl: string,
    detailsReply: Http.Reply<DiseaseDetails>, saveReply: Http.Reply<()>, now: int)
    requires Authenticated(browser) && |prediction.top5| > 0 && detailsReply.Replied?
    ensures var r := SavePredictionWithDetails(env, browser, prediction, imageUrl, detailsReply, saveReply, now);
            && r.trace[0] == Call(Http.Get, DetailsPath(env, prediction.top5[0].disease, DefaultLanguage))
            && r.saved.Some?
            && r.saved.value.body.disease == prediction.top5[0].disease
            && r.saved.value.body.details == detailsReply.data.details
            && r.saved.value.body.diseaseDetails.disease == detailsReply.data.disease
  {
  }
}

=== FILE: effects.dfy ===
/** An effect trace: the observable actions of a handler, in order. */
module Effects {
  import Http

  datatype Area = SessionArea | LocalArea

  datatype Effect =
    | Call(verb: Http.Method, path: string)
    | StoreWrite(area: Area, key: string)
    | StoreRemove(area: Area, key: string)
    | Navigate(url: string)

  /** The trace issues no request. */
  predicate NoCalls(trace: seq<Effect>) {
    forall i :: 0 <= i < |trace| ==> !trace[i].Call?
  }
}

=== FILE: history_service.dfy ===
/** `services/history_service.ts`: the signed-in user's saved results. */
module HistoryService {
  import opened Wrappers
  import opened Js
  import Http
  import Storage
  import NextAuth
  import SaveResultsService
  import AuthCallback
  import AuthContext

  const NoToken := "No access token found"

  function HistoryRequest(username: string, token: string): (r: Http.Request<()>)
    ensures r.verb == Http.Get && r.path == "/results/" + username
    ensures Http.Header("Authorization", "Bearer " + token) in r.headers
  {
    Http.Request(Http.Get, "/results/" + username,
                 [Http.JsonContentType, Http.Header("Authorization", "Bearer " + token)], ())
  }

  /** The requests sent (at most one) and how the promise settles. */
  datatype HistoryOutcome<T> = HistoryOutcome(requests: seq<Http.Request<()>>, result: Result<seq<T>, Value>)

  /** `getHistory`: both stored credentials must be present and non-empty
      before any request; errors, storage throws included, are rethrown. */
  function GetHistory<T>(session: Storage.Store, local: Storage.Store, reply: Http.Reply<seq<T>>): (r: HistoryOutcome<T>)
    ensures !session.available || !local.available ==> r == HistoryOutcome([], Failure(Storage.Refused))
    ensures var u := SaveResultsService.GetUsernameFromSession(session);
            var t := SaveResultsService.GetAccessTokenFromLocalStorage(local);
            && (session.available && local.available && !(Truthy(u) && Truthy(t)) ==>
                  r == HistoryOutcome([], Failure(NewError(NoToken))))
            && (Truthy(u) && Truthy(t) ==>
                  r == HistoryOutcome([HistoryRequest(u.value, t.value)], Http.Settle(reply)))
  {
    match Storage.GetItem(session, SaveResultsService.UsernameKey)
    case Failure(e) => HistoryOutcome([], Failure(e))
    case Success(username) =>
      match Storage.GetItem(local, SaveResultsService.AccessTokenKey)
      case Failure(e) => HistoryOutcome([], Failure(e))
      case Success(token) =>
        if !Truthy(token) || !Truthy(username) then HistoryOutcome([], Failure(NewError(NoToken)))
        else HistoryOutcome([HistoryRequest(username.value, token.value)], Http.Settle(reply))
  }

  /** `useHistory`'s username: the NextAuth e-mail when non-empty, else the name. */
  function SessionUsername(s: Option<NextAuth.Session>): (r: Option<string>)
    ensures s.Some? && s.value.user.Some? && Truthy(s.value.user.value.email) ==> r == s.value.user.value.email
    ensures !(s.Some? && s.value.user.Some?) ==> r.None?
    ensures s.Some? && s.value.user.Some? && !Truthy(s.value.user.value.email) ==> r == s.value.user.value.name
  {
    if s.Some? && s.value.user.Some? then
      var u := s.value.user.value;
      if Truthy(u.email) then u.email else u.name
    else None
  }

  /** `fetchHistory`: an empty history, without any request, when NextAuth
      knows no user; otherwise `getHistory`, which reads the username from
      session storage, not from NextAuth. */
  function FetchHistory<T>(s: Option<NextAuth.Session>, session: Storage.Store, local: Storage.Store,
                           reply: Http.Reply<seq<T>>): (r: HistoryOutcome<T>)
    ensures !Truthy(SessionUsername(s)) ==> r == HistoryOutcome([], Success([]))
    ensures Truthy(SessionUsername(s)) ==> r == GetHistory(session, local, reply)
    ensures |r.requests| <= 1
    ensures forall i :: 0 <= i < |r.requests| ==>
              r.requests[i].path == "/results/" + SaveResultsService.GetUsernameFromSession(session).value
  {
    if !Truthy(SessionUsername(s)) then HistoryOutcome([], Success([])) else GetHistory(session, local, reply)
  }

  /** The credentials the auth callback stores are the ones the history
      needs: after a successful callback, `fetchHistory` sends exactly one
      request, for the signed-in e-mail with the provider's token, and
      settles as that request does. */
  lemma HistoryAfterCallback<T>(s: Option<NextAuth.Session>, ctx: AuthContext.Context, local: Storage.Store,
                                reply: Http.Reply<seq<T>>)
    requires Truthy(AuthCallback.SessionEmail(s)) && Truthy(AuthCallback.SessionToken(s))
    requires local.available && ctx.session.available
    ensures var cb := AuthCallback.Run(s, ctx, local);
            var h := FetchHistory(s, cb.context.session, cb.local, reply);
            && h.requests == [HistoryRequest(AuthCallback.SessionEmail(s).value, AuthCallback.SessionToken(s).value)]
            && h.result == Http.Settle(reply)
  {
    AuthCallback.CallbackEnablesSave(s, ctx, local);
  }
}

=== FILE: http_service.dfy ===
/** The configured axios instance of `services/http_service.ts`: a base URL,
    a default JSON content type, and a response interceptor that reshapes
    every rejection before any service sees it. */
module Http {
  import opened Wrappers
  import opened Js

  const BaseUrl := "http://127.0.0.1:8002"
  const NoResponseMessage := "No response from server"

  datatype Method = Get | Post | Put | Delete

  datatype Header = Header(name: string, value: string)

  /** One outgoing request; `B` is the shape of the JSON body. */
  datatype Request<B> = Request(verb: Method, path: string, headers: seq<Header>, body: B)

  const JsonContentType := Header("Content-Type", "application/json")

  /** What the network does with one request, before the interceptor: the
      response body on success, or the raw axios error. */
  datatype Reply<T> = Replied(data: T) | Raised(error: Value)

  /** The interceptor's rejection handler: errors with a response become
      the response body, errors with only a request become a fixed error,
      and anything else is passed on unchanged. Tested in that order. */
  function OnRejected(error: Value): (r: Value)
    ensures error.Object? && error.response.Some? ==> r == error.response.value.data
    ensures error.Object? && error.response.None? && error.request ==> r == NewError(NoResponseMessage)
    ensures !(error.Object? && (error.response.Some? || error.request)) ==> r == error
  {
    if error.Object? && error.response.Some? then error.response.value.data
    else if error.Object? && error.request then NewError(NoResponseMessage)
    else error
  }

  /** The promise a service awaits: success bodies pass through unchanged,
      rejections go through `OnRejected`. */
  function Settle<T>(reply: Reply<T>): (r: Result<T, Value>)
    ensures reply.Replied? <==> r.Success?
    ensures reply.Replied? ==> r.value == reply.data
    ensures reply.Raised? ==> r.error == OnRejected(reply.error)
  {
    match reply
    case Replied(data) => Success(data)
    case Raised(e) => Failure(OnRejected(e))
  }

  /** The server's error body, if any, has no `response` field of its own. */
  predicate PlainPayload(error: Value) {
    error.Object? && error.response.Some? ==> Plain(error.response.value.data)
  }

  /** Whatever the interceptor rejects with carries no `response` field,
      unless the server's own body had one: a caller that inspects
      `err.response` after the interceptor never sees the HTTP status. */
  lemma InterceptedErrorsArePlain(error: Value)
    requires PlainPayload(error)
    ensures Plain(OnRejected(error))
  {
  }

  /** The interceptor is idempotent on its own output: applied to a value it
      produced, provided that value carries no `request` flag, it returns it
      unchanged. */
  lemma OnRejectedStable(error: Value)
    requires PlainPayload(error)
    requires var r := OnRejected(error); !(r.Object? && r.request)
    ensures OnRejected(OnRejected(error)) == OnRejected(error)
  {
  }
}

=== FILE: image_upload.dfy ===
/** `components/ImageUpload.tsx`: picking an X-ray image, checking it, and
    uploading it with the stored access token. */
module ImageUpload {
  import opened Wrappers
  import opened Js
  import Http
  import opened Effects
  import Storage

  const UploadPath := "/images/upload"
  const SignInPage := "/signin"
  const TokenKey := "access_token"
  const MaxBytes := 5 * 1024 * 1024
  const ImagePattern := "image"
  const NotAnImage := "Please select an image file"
  const TooLarge := "File size must be less than 5MB"
  const SessionExpired := "Session expired. Please sign in again."
  const UploadFailed := "Failed to upload image. Please try again."

  // ---------------------------------------------------------------------
  // The type check

  /** A left-to-right scan for `pattern` in `s`. */
  function Occurs(pattern: string, s: string): bool
    decreases |s|
  {
    if |s| < |pattern| then false
    else if s[..|pattern|] == pattern then true
    else Occurs(pattern, s[1..])
  }

  /** `pattern` occurs in `s` starting at position `i`. */
  predicate OccursAt(pattern: string, s: string, i: int) {
    0 <= i && i + |pattern| <= |s| && s[i..i + |pattern|] == pattern
  }

  lemma {:induction false} OccursIffSubstring(pattern: string, s: string)
    ensures Occurs(pattern, s) <==> exists i :: OccursAt(pattern, s, i)
    decreases |s|
  {
    if |s| < |pattern| {
    } else if s[..|pattern|] == pattern {
      assert OccursAt(pattern, s, 0);
    } else {
      OccursIffSubstring(pattern, s[1..]);
      if Occurs(pattern, s[1..]) {
        var i :| OccursAt(pattern, s[1..], i);
        assert s[1..][i..i + |pattern|] == s[i + 1..i + 1 + |pattern|];
        assert OccursAt(pattern, s, i + 1);
      }
      if exists i :: OccursAt(pattern, s, i) {
        var i :| OccursAt(pattern, s, i);
        assert i != 0;
        assert s[1..][i - 1..i - 1 + |pattern|] == s[i..i + |pattern|];
        assert OccursAt(pattern, s[1..], i - 1);
      }
    }
  }

  /** `type.match('image.*')`: the pattern is not anchored and `.*` may
      match nothing, so it matches exactly the types containing `image`. */
  function MatchesImage(mimeType: string): (r: bool)
    ensures r <==> exists i :: OccursAt(ImagePattern, mimeType, i)
  {
    OccursIffSubstring(ImagePattern, mimeType);
    Occurs(ImagePattern, mimeType)
  }

  // ---------------------------------------------------------------------
  // The uploader

  /** What the component knows of the chosen file. */
  datatype FileInfo = FileInfo(mimeType: string, size: int)

  /** The uploader's state; `chosen` is the file the hidden input holds,
      `U` the server's description of an uploaded image. */
  datatype Uploader<U> = Uploader(
    selectedImage: Option<string>, chosen: Option<FileInfo>,
    isUploading: bool, uploadResult: Option<U>, error: Option<string>)

  function Initial<U>(): Uploader<U> {
    Uploader(None, None, false, None, None)
  }

  /** The check `handleImageChange` runs on a file: the type first, then
      the size; `None` when the file is accepted. */
  function Validate(file: FileInfo): (r: Option<string>)
    ensures !MatchesImage(file.mimeType) ==> r == Some(NotAnImage)
    ensures MatchesImage(file.mimeType) && file.size > MaxBytes ==> r == Some(TooLarge)
    ensures r.None? <==> MatchesImage(file.mimeType) && file.size <= MaxBytes
  {
    if !MatchesImage(file.mimeType) then Some(NotAnImage)
    else if file.size > MaxBytes then Some(TooLarge)
    else None
  }

  datatype ChangeOutcome<U> = ChangeOutcome(state: Uploader<U>, startsRead: bool)

  /** `handleImageChange`: the error is cleared, the input holds whatever
      was picked, and an accepted file starts a read; the preview changes
      only when that read completes. */
  function Change<U>(u: Uploader<U>, file: Option<FileInfo>): (r: ChangeOutcome<U>)
    ensures r.state == u.(chosen := file, error := if file.Some? then Validate(file.value) else None)
    ensures r.startsRead <==> file.Some? && Validate(file.value).None?
  {
    var cleared := u.(chosen := file, error := None);
    match file
    case None => ChangeOutcome(cleared, false)
    case Some(f) =>
      match Validate(f)
      case Some(message) => ChangeOutcome(cleared.(error := Some(message)), false)
      case None => ChangeOutcome(cleared, true)
  }

  /** The reader's `onload`: a string result becomes the preview. */
  function Loaded<U>(u: Uploader<U>, result: Option<string>): (r: Uploader<U>)
    ensures result.Some? ==> r.selectedImage == result
    ensures r.(selectedImage := u.selectedImage) == u
  {
    if result.Some? then u.(selectedImage := result) else u
  }

  /** `handleRemoveImage`. */
  function Remove<U>(u: Uploader<U>): (r: Uploader<U>)
    ensures r.selectedImage.None? && r.uploadResult.None? && r.error.None? && r.chosen.None?
    ensures r.isUploading == u.isUploading
  {
    u.(selectedImage := None, uploadResult := None, error := None, chosen := None)
  }

  /** An accepted file followed by its read shows the preview with no
      error; removing it brings back the empty uploader. */
  lemma PickThenRemove<U>(file: FileInfo, dataUrl: string)
    requires Validate(file).None?
    ensures var picked := Change(Initial<U>(), Some(file));
            picked.startsRead && Loaded(picked.state, Some(dataUrl)).selectedImage == Some(dataUrl)
            && Loaded(picked.state, Some(dataUrl)).error.None?
            && Remove(Loaded(picked.state, Some(dataUrl))) == Initial<U>()
  {
  }

  /** The size bound is inclusive: exactly 5 MiB passes, one byte more
      does not. */
  lemma SizeBoundary(mimeType: string)
    requires MatchesImage(mimeType)
    ensures Validate(FileInfo(mimeType, MaxBytes)).None?
    ensures Validate(FileInfo(mimeType, MaxBytes + 1)) == Some(TooLarge)
  {
  }

  // ---------------------------------------------------------------------
  // The upload

  /** `${token}` of a possibly missing token. */
  function TokenText(token: Option<string>): string {
    if token.Some? then token.value else "null"
  }

  function UploadRequest(file: FileInfo, token: Option<string>): (r: Http.Request<FileInfo>)
    ensures r.verb == Http.Post && r.path == UploadPath && r.body == file
    ensures Http.Header("Authorization", "Bearer " + TokenText(token)) in r.headers
  {
    Http.Request(Http.Post, UploadPath,
      [Http.Header("Content-Type", "multipart/form-data"), Http.Header("Authorization", "Bearer " + TokenText(token))],
      file)
  }

  /** `err.response?.status === 401` on the value the handler catches. */
  predicate Unauthorized(err: Value) {
    err.Object? && err.response.Some? && err.response.value.status == 401
  }

  /** The state while an upload is in flight: the picker is disabled and
      the old error is gone; the preview and the last result stay. */
  function Pending<U>(u: Uploader<U>): (r: Uploader<U>)
    ensures r.isUploading && r.error.None?
    ensures r.(isUploading := u.isUploading, error := u.error) == u
  {
    u.(isUploading := true, error := None)
  }

  /** The final state, the in-flight state the handler passed through (if
      it got past its guards), the request sent and the effects. */
  datatype UploadOutcome<U> = UploadOutcome(
    state: Uploader<U>, during: Option<Uploader<U>>, sent: Option<Http.Request<FileInfo>>, trace: seq<Effect>)

  /** The shared shape of `handleUpload`; `expired` says whether the catch
      block takes its 401 branch. */
  function RunUpload<U>(u: Uploader<U>, isAuthenticated: bool, local: Storage.Store,
                        reply: Http.Reply<U>, expired: Value -> bool): (r: UploadOutcome<U>)
  {
    if !Truthy(u.selectedImage) || u.chosen.None? then UploadOutcome(u, None, None, [])
    else if !isAuthenticated then UploadOutcome(u, None, None, [Navigate(SignInPage)])
    else
      var busy := Pending(u);
      match Storage.GetItem(local, TokenKey)
      case Failure(e) =>
        UploadOutcome(busy.(isUploading := false, error := Some(ErrorText(e, UploadFailed))), Some(busy), None, [])
      case Success(token) =>
        var request := UploadRequest(u.chosen.value, token);
        var call := [Call(request.verb, request.path)];
        match reply
        case Replied(data) =>
          UploadOutcome(busy.(isUploading := false, uploadResult := Some(data)), Some(busy), Some(request), call)
        case Raised(raw) =>
          if expired(raw) then
            UploadOutcome(busy.(isUploading := false, error := Some(SessionExpired)), Some(busy), Some(request),
                          call + [Navigate(SignInPage)])
          else
            UploadOutcome(busy.(isUploading := false, error := Some(ErrorText(Http.OnRejected(raw), UploadFailed))),
                          Some(busy), Some(request), call)
  }

  /** `handleUpload` as written: the 401 test reads the error the
      interceptor rejected with, which is the server's body. */
  function UploadAsWritten<U>(u: Uploader<U>, isAuthenticated: bool, local: Storage.Store, reply: Http.Reply<U>): UploadOutcome<U> {
    RunUpload(u, isAuthenticated, local, reply, raw => Unauthorized(Http.OnRejected(raw)))
  }

  /** As written, a 401 whose body is a plain object (as a JSON body is)
      never ends the session: the user stays on the page with the generic
      message. */
  lemma ExpiredSessionMissed<U>(u: Uploader<U>, local: Storage.Store)
    requires Truthy(u.selectedImage) && u.chosen.Some? && local.available
    ensures var raw := Object(None, Some(Response(401, Object(None, None, false))), false);
            var out := UploadAsWritten(u, true, local, Http.Reply<U>.Raised(raw));
            out.state.error == Some(UploadFailed) && Navigate(SignInPage) !in out.trace
  {
  }

  /** `handleUpload` with the 401 test on the HTTP status, as intended:
      the guards, then the in-flight state, the token read and one request
      sent from that state; `isUploading` ends false in every outcome that
      starts an upload, and only a successful reply replaces the result. */
  function Upload<U>(u: Uploader<U>, isAuthenticated: bool, local: Storage.Store, reply: Http.Reply<U>): (r: UploadOutcome<U>)
    ensures !Truthy(u.selectedImage) || u.chosen.None? ==> r == UploadOutcome(u, None, None, [])
    ensures Truthy(u.selectedImage) && u.chosen.Some? && !isAuthenticated ==>
              r == UploadOutcome(u, None, None, [Navigate(SignInPage)])
    ensures Truthy(u.selectedImage) && u.chosen.Some? && isAuthenticated ==>
              r.during == Some(Pending(u))
              && !r.state.isUploading && r.state.selectedImage == u.selectedImage && r.state.chosen == u.chosen
    ensures r.sent.Some? ==> r.during.Some? && r.during.value.isUploading
    ensures Truthy(u.selectedImage) && u.chosen.Some? && isAuthenticated && !(r.sent.Some? && reply.Replied?) ==>
              r.state.uploadResult == u.uploadResult
    ensures Truthy(u.selectedImage) && u.chosen.Some? && isAuthenticated && !local.available ==>
              r.sent.None? && r.state.error == Some(ErrorText(Storage.Refused, UploadFailed)) && r.trace == []
    ensures Truthy(u.selectedImage) && u.chosen.Some? && isAuthenticated && local.available ==>
              r.sent == Some(UploadRequest(u.chosen.value, Storage.ReadOrNull(local, TokenKey)))
              && |r.trace| >= 1 && r.trace[0] == Call(Http.Post, UploadPath)
    ensures r.sent.Some? && reply.Replied? ==>
              r.state.uploadResult == Some(reply.data) && r.state.error.None? && |r.trace| == 1
    ensures r.sent.Some? && reply.Raised? && Unauthorized(reply.error) ==>
              r.state.error == Some(SessionExpired) && r.trace == [Call(Http.Post, UploadPath), Navigate(SignInPage)]
    ensures r.sent.Some? && reply.Raised? && !Unauthorized(reply.error) ==>
              r.state.error == Some(ErrorText(Http.OnRejected(reply.error), UploadFailed)) && |r.trace| == 1
  {
    RunUpload(u, isAuthenticated, local, reply, Unauthorized)
  }

  /** With the status read before the interceptor, the same 401 ends the
      session and sends the user to sign in. */
  lemma ExpiredSessionHandled<U>(u: Uploader<U>, local: Storage.Store)
    requires Truthy(u.selectedImage) && u.chosen.Some? && local.available
    ensures var raw := Object(None, Some(Response(401, Object(None, None, false))), false);
            var out := Upload(u, true, local, Http.Reply<U>.Raised(raw));
            out.state.error == Some(SessionExpired) && out.trace[|out.trace| - 1] == Navigate(SignInPage)
  {
  }

  /** The two versions differ only on a 401 or on a server body that has
      its own `response` field: for every other rejection, and on every
      other path, they agree. */
  lemma VersionsAgreeOffUnauthorized<U>(u: Uploader<U>, isAuthenticated: bool, local: Storage.Store, reply: Http.Reply<U>)
    requires reply.Raised? ==> !Unauthorized(reply.error) && Http.PlainPayload(reply.error)
    ensures UploadAsWritten(u, isAuthenticated, local, reply) == Upload(u, isAuthenticated, local, reply)
  {
    if reply.Raised? {
      Http.InterceptedErrorsArePlain(reply.error);
    }
  }
}

=== FILE: js.dfy ===
/** The slice of JavaScript's value semantics that the error paths and the
    `||` defaults of the application read: thrown values, the fields
    `message`, `response` and `request` that handlers inspect, and the
    truthiness of optional strings. */
module Js {
  import opened Wrappers

  /** A value that may be thrown or carried as a response body. Only the
      fields that some handler reads are represented. */
  datatype Value =
    | Undefined
    | Null
    | Primitive(text: string)
    | Object(message: Option<string>, response: Option<Response>, request: bool)

  /** An HTTP response attached to an axios error. */
  datatype Response = Response(status: int, data: Value)

  /** `!!s` for a possibly missing string: `undefined`, `null` and `''` are falsy. */
  predicate Truthy(s: Option<string>) {
    s.Some? && s.value != ""
  }

  /** `a || b` for possibly missing strings. */
  function Or(a: Option<string>, b: string): (r: string)
    ensures Truthy(a) ==> r == a.value
    ensures !Truthy(a) ==> r == b
  {
    if Truthy(a) then a.value else b
  }

  /** `new Error(message)`: an object carrying only a message. */
  function NewError(message: string): Value {
    Object(Some(message), None, false)
  }

  /** The `TypeError` raised by reading property `name` of `undefined`.
      Its exact wording is engine-specific; only its identity matters. */
  function TypeErrorReading(name: string): Value {
    NewError("Cannot read properties of undefined (reading '" + name + "')")
  }

  /** `v.message` where reading it is defined (on `undefined`/`null` it
      would throw; callers that reach that case model it themselves). */
  function MessageOf(v: Value): Option<string> {
    if v.Object? then v.message else None
  }

  /** `err.message || fallback`, the text every UI handler shows. */
  function ErrorText(err: Value, fallback: string): (r: string)
    ensures Truthy(MessageOf(err)) ==> r == MessageOf(err).value
    ensures !Truthy(MessageOf(err)) ==> r == fallback
  {
    Or(MessageOf(err), fallback)
  }

  /** A value has no `response` field: reading `v.response?.x` yields `undefined`. */
  predicate Plain(v: Value) {
    !(v.Object? && v.response.Some?)
  }
}

=== FILE: json.dfy ===
/** `JSON.stringify` / `JSON.parse` as an abstract pair. `parse` yields
    `None` where `JSON.parse` throws. The only thing the application relies
    on is the round trip, stated by `Lawful`; every property that needs it
    takes it as a precondition. */
module Json {
  import opened Wrappers

  datatype Codec<!T> = Codec(stringify: T -> string, parse: string -> Option<T>)

  /** Round trip, and `JSON.stringify` of an object is never the empty string. */
  ghost predicate Lawful<T(!new)>(c: Codec<T>) {
    forall x: T {:trigger c.stringify(x)} :: c.stringify(x) != "" && c.parse(c.stringify(x)) == Some(x)
  }
}

=== FILE: make_reviews.dfy ===
/** `components/MakeReviewsComponent.tsx`: the review composer. A review
    needs a signed-in user and a star rating; a saved review is prepended
    to the list the page shows and the form is cleared. */
module MakeReviews {
  import opened Wrappers
  import opened Js
  import Http

  const ReviewsPath := "/reviews/"
  const NotLoggedIn := "You must be logged in to submit a review"
  const NoRating := "Please select a rating"
  const SubmitFailed := "Failed to submit review"

  /** The star buttons, in display order. */
  const Stars: seq<int> := [1, 2, 3, 4, 5]

  /** The composer's state; `R` is whatever the server returns for a new
      review, which the page stores without looking inside. */
  datatype Composer<R> = Composer(
    content: string, rating: int, hoverRating: int,
    isSubmitting: bool, error: string, reviews: seq<R>)

  function Initial<R>(): Composer<R> {
    Composer("", 0, 0, false, "", [])
  }

  /** The body of `createReview(content, rating, username)`. */
  datatype ReviewBody = ReviewBody(username: string, content: string, rating: int)

  function CreateRequest(username: string, content: string, rating: int): Http.Request<ReviewBody> {
    Http.Request(Http.Post, ReviewsPath, [], ReviewBody(username, content, rating))
  }

  datatype SubmitOutcome<R> = SubmitOutcome(state: Composer<R>, sent: Option<Http.Request<ReviewBody>>)

  /** `handleSubmit`: the sign-in guard, then the rating guard, then one
      request. */
  function Submit<R>(c: Composer<R>, username: Option<string>, reply: Http.Reply<R>): (r: SubmitOutcome<R>)
    ensures !Truthy(username) ==> r == SubmitOutcome(c.(error := NotLoggedIn), None)
    ensures Truthy(username) && c.rating == 0 ==> r == SubmitOutcome(c.(error := NoRating), None)
    ensures Truthy(username) && c.rating != 0 ==>
              r.sent == Some(CreateRequest(username.value, c.content, c.rating)) && !r.state.isSubmitting
    ensures Truthy(username) && c.rating != 0 && reply.Replied? ==>
              r.state == Composer("", 0, 0, false, "", [reply.data] + c.reviews)
    ensures Truthy(username) && c.rating != 0 && reply.Raised? ==>
              r.state == c.(isSubmitting := false, error := ErrorText(Http.OnRejected(reply.error), SubmitFailed))
  {
    if !Truthy(username) then SubmitOutcome(c.(error := NotLoggedIn), None)
    else if c.rating == 0 then SubmitOutcome(c.(error := NoRating), None)
    else
      var busy := c.(isSubmitting := true, error := "");
      var request := CreateRequest(username.value, c.content, c.rating);
      match Http.Settle(reply)
      case Success(review) =>
        SubmitOutcome(busy.(content := "", rating := 0, hoverRating := 0, isSubmitting := false,
                            reviews := [review] + c.reviews), Some(request))
      case Failure(e) =>
        SubmitOutcome(busy.(isSubmitting := false, error := ErrorText(e, SubmitFailed)), Some(request))
  }

  /** A request goes out exactly when a user is signed in and a star is
      chosen. */
  lemma RequestOnlyWhenReady<R>(c: Composer<R>, username: Option<string>, reply: Http.Reply<R>)
    ensures Submit(c, username, reply).sent.Some? <==> Truthy(username) && c.rating != 0
  {
  }

  /** A saved review clears the rating, so submitting the same form again
      is refused without a second request. */
  lemma NoDoubleSubmit<R>(c: Composer<R>, username: Option<string>, first: Http.Reply<R>, second: Http.Reply<R>)
    requires first.Replied?
    ensures var again := Submit(Submit(c, username, first).state, username, second);
            again.sent.None? && (Truthy(username) ==> again.state.error == NoRating)
  {
  }

  // ---------------------------------------------------------------------
  // Stars

  /** Clicking star `s` selects it as the rating. */
  function ClickStar<R>(c: Composer<R>, s: int): (r: Composer<R>)
    requires s in Stars
    ensures 1 <= r.rating <= 5 && r.rating == s
    ensures r.(rating := c.rating) == c
  {
    c.(rating := s)
  }

  /** The cursor entering star `s` previews it; nothing else changes. */
  function Hover<R>(c: Composer<R>, s: int): (r: Composer<R>)
    requires s in Stars
    ensures 1 <= r.hoverRating <= 5 && r.hoverRating == s
    ensures r.(hoverRating := c.hoverRating) == c
  {
    c.(hoverRating := s)
  }

  /** The cursor leaving the row drops the preview; nothing else changes. */
  function Leave<R>(c: Composer<R>): (r: Composer<R>)
    ensures r.hoverRating == 0
    ensures r.(hoverRating := c.hoverRating) == c
  {
    c.(hoverRating := 0)
  }

  /** `star <= (hoverRating || rating)`: the hovered star wins over the
      chosen one while the cursor is over the row. */
  predicate Filled<R>(c: Composer<R>, star: int) {
    star <= (if c.hoverRating != 0 then c.hoverRating else c.rating)
  }

  /** After a click and the cursor leaving, the stars up to the clicked
      one are filled and no others. */
  lemma ClickedStarsShow<R>(c: Composer<R>, s: int)
    requires s in Stars
    ensures forall t :: t in Stars ==> (Filled(Leave(ClickStar(c, s)), t) <==> t <= s)
  {
  }

  /** While hovering, the row previews the hovered star whatever the
      rating is. */
  lemma HoverPreviews<R>(c: Composer<R>, s: int)
    requires s in Stars
    ensures forall t :: t in Stars ==> (Filled(Hover(c, s), t) <==> t <= s)
  {
  }

  // ---------------------------------------------------------------------
  // The rating label

  /** The decimal digit for `d`. */
  function Digit(d: int): (c: char)
    requires 0 <= d < 10
    ensures '0' <= c <= '9'
  {
    ('0' as int + d) as char
  }

  /** `${n}` for a non-negative integer: decimal digits, no leading zero. */
  function NatToString(n: nat): (r: string)
    ensures |r| >= 1
    ensures forall i :: 0 <= i < |r| ==> '0' <= r[i] <= '9'
    ensures n > 0 ==> r[0] != '0'
    decreases n
  {
    if n < 10 then [Digit(n)] else NatToString(n / 10) + [Digit(n % 10)]
  }

  /** The number a string of decimal digits denotes. */
  function DecimalValue(s: string): int
    requires forall i :: 0 <= i < |s| ==> '0' <= s[i] <= '9'
    decreases |s|
  {
    if s == [] then 0 else DecimalValue(s[..|s| - 1]) * 10 + (s[|s| - 1] as int - '0' as int)
  }

  /** The digits read back as the number they were made from. */
  lemma {:induction false} DecimalRoundTrip(n: nat)
    ensures DecimalValue(NatToString(n)) == n
    decreases n
  {
    var s := NatToString(n);
    if n >= 10 {
      assert s[..|s| - 1] == NatToString(n / 10);
      DecimalRoundTrip(n / 10);
    } else {
      assert s[..0] == [];
    }
  }

  /** `${n}` for any integer. */
  function IntToString(n: int): string {
    if n < 0 then "-" + NatToString(-n) else NatToString(n)
  }

  /** The text next to the stars: a single space when nothing is chosen,
      otherwise the count with a singular or plural noun. */
  function RatingLabel(rating: int): (r: string)
    ensures rating == 0 <==> r == " "
    ensures rating == 1 ==> r == "1 star"
    ensures rating > 1 ==> r == NatToString(rating) + " stars"
  {
    if rating == 0 then " "
    else IntToString(rating) + " " + (if rating == 1 then "star" else "stars")
  }

  /** The label of a chosen rating starts with digits that read back as the
      rating. */
  lemma LabelNamesRating(rating: int)
    requires 1 <= rating <= 5
    ensures var digits := NatToString(rating);
            |digits| < |RatingLabel(rating)| && RatingLabel(rating)[..|digits|] == digits
            && DecimalValue(digits) == rating
  {
    DecimalRoundTrip(rating);
  }
}

=== FILE: manage_reviews.dfy ===
/** `components/ManageReviewsComponent.tsx`: the signed-in user's own
    reviews, with a "Delete All" action. The list itself is owned by the
    parent composer and handed down; this panel adds `loading` and `error`. */
module ManageReviews {
  import opened Wrappers
  import opened Js
  import Http

  const ReviewsPath := "/reviews/"
  const DeleteFailed := "Failed to delete reviews"

  datatype Panel<R> = Panel(reviews: seq<R>, loading: bool, error: string)

  /** The first render: loading, no error, the parent's list. */
  function Initial<R>(reviews: seq<R>): Panel<R> {
    Panel(reviews, true, "")
  }

  /** `getReviewsByUsername` and `deleteReviewsByUsername` share one path. */
  function UserPath(username: string): string {
    ReviewsPath + username
  }

  datatype Outcome<R> = Outcome(panel: Panel<R>, sent: Option<Http.Request<()>>)

  /** The mount effect: nothing without a username (the panel then stays
      `loading` for good); otherwise the user's reviews replace the list,
      or the error is set to the message (possibly `''`), and loading
      ends either way. */
  function Mount<R>(p: Panel<R>, username: Option<string>, reply: Http.Reply<seq<R>>): (r: Outcome<R>)
    ensures !Truthy(username) ==> r == Outcome(p, None)
    ensures Truthy(username) ==>
              r.sent == Some(Http.Request(Http.Get, UserPath(username.value), [], ())) && !r.panel.loading
    ensures Truthy(username) && reply.Replied? ==> r.panel.reviews == reply.data && r.panel.error == p.error
    ensures Truthy(username) && reply.Raised? ==>
              r.panel.reviews == p.reviews && r.panel.error == ErrorText(Http.OnRejected(reply.error), "")
  {
    if !Truthy(username) then Outcome(p, None)
    else
      var request := Http.Request(Http.Get, UserPath(username.value), [], ());
      match Http.Settle(reply)
      case Success(data) => Outcome(p.(reviews := data, loading := false), Some(request))
      case Failure(e) => Outcome(p.(loading := false, error := ErrorText(e, "")), Some(request))
  }

  /** `handleDelete`: nothing without a username or when the confirm is
      declined; otherwise one DELETE, after which the list is empty or the
      error is set with the list left as it was. */
  function Delete<R>(p: Panel<R>, username: Option<string>, confirmed: bool, reply: Http.Reply<Value>): (r: Outcome<R>)
    ensures !Truthy(username) || !confirmed ==> r == Outcome(p, None)
    ensures Truthy(username) && confirmed ==>
              r.sent == Some(Http.Request(Http.Delete, UserPath(username.value), [], ()))
    ensures Truthy(username) && confirmed && reply.Replied? ==> r.panel == p.(reviews := [])
    ensures Truthy(username) && confirmed && reply.Raised? ==>
              r.panel == p.(error := ErrorText(Http.OnRejected(reply.error), DeleteFailed))
  {
    if !Truthy(username) || !confirmed then Outcome(p, None)
    else
      var request := Http.Request(Http.Delete, UserPath(username.value), [], ());
      match Http.Settle(reply)
      case Success(_) => Outcome(p.(reviews := []), Some(request))
      case Failure(e) => Outcome(p.(error := ErrorText(e, DeleteFailed)), Some(request))
  }

  /** What the panel draws. */
  datatype Screen =
    | LoginPrompt
    | Loading
    | ErrorMessage(text: string)
    | List(count: nat, deleteAll: bool, scrolls: bool)

  /** The render's early returns, in order: no username, loading with an
      empty list, an error, and only then the list. */
  function Render<R>(p: Panel<R>, username: Option<string>): (r: Screen)
    ensures r == LoginPrompt <==> !Truthy(username)
    ensures r == Loading <==> Truthy(username) && p.loading && |p.reviews| == 0
    ensures r.ErrorMessage? <==> Truthy(username) && !(p.loading && |p.reviews| == 0) && p.error != ""
    ensures r.ErrorMessage? ==> r.text == p.error
    ensures r.List? ==> r.count == |p.reviews| && (r.deleteAll <==> |p.reviews| > 0) && (r.scrolls <==> |p.reviews| > 3)
  {
    if !Truthy(username) then LoginPrompt
    else if p.loading && |p.reviews| == 0 then Loading
    else if p.error != "" then ErrorMessage(p.error)
    else List(|p.reviews|, |p.reviews| > 0, |p.reviews| > 3)
  }

  /** The message a failed delete shows is never empty: with no server
      message the fixed text is used. */
  lemma DeleteErrorNonEmpty(error: Value)
    ensures ErrorText(Http.OnRejected(error), DeleteFailed) != ""
  {
  }

  /** A failed "Delete All" (reachable only with a non-empty list) hides the
      list, which is still held, behind the error. */
  lemma FailedDeleteHidesList<R>(p: Panel<R>, username: Option<string>, e: Value)
    requires Truthy(username) && |p.reviews| > 0
    ensures var after := Delete(p, username, true, Http.Raised(e)).panel;
            after.reviews == p.reviews && Render(after, username) == ErrorMessage(after.error)
  {
    DeleteErrorNonEmpty(e);
  }

  /** Once set, the error stays set through any further delete and through
      a re-mount whose fetch succeeds: the delete handler only ever writes a
      non-empty text, and a successful fetch leaves the error alone. */
  lemma ErrorSurvivesDeleteAndReload<R>(p: Panel<R>, username: Option<string>, confirmed: bool,
                                        reply: Http.Reply<Value>, fetched: seq<R>)
    requires p.error != ""
    ensures Delete(p, username, confirmed, reply).panel.error != ""
    ensures Mount(p, username, Http.Replied(fetched)).panel.error == p.error
  {
    DeleteErrorNonEmpty(if reply.Raised? then reply.error else Undefined);
  }

  /** A re-mount whose fetch fails with a body that carries no message does
      clear the error: `err.message || ''` is then the empty string. */
  lemma FailedReloadCanClearError<R>(p: Panel<R>, username: string)
    requires username != ""
    ensures Mount(p, Some(username), Http.Raised(Object(None, Some(Response(500, Object(None, None, false))), false))).panel.error == ""
  {
  }

  /** After a successful "Delete All" the panel offers no second delete. */
  lemma DeletedListOffersNoDelete<R>(p: Panel<R>, username: Option<string>, ok: Value)
    requires Truthy(username) && p.error == "" && !p.loading
    ensures Render(Delete(p, username, true, Http.Replied(ok)).panel, username) == List(0, false, false)
  {
  }
}

=== FILE: newsletter.dfy ===
/** `app/admin/newsletter/page.tsx`: the subscriber list and the form that
    mails a newsletter to all of them, with a live preview. */
module Newsletter {
  import opened Wrappers
  import opened Js
  import Http
  import opened Effects
  import AdminAccess

  const SubscribersPath := "/subscribers"
  const SendPath := "/send-newsletter"
  const FetchFailed := "Failed to fetch subscribers"
  const Sent := "Newsletter sent successfully!"
  const SendFailed := "Failed to send newsletter"
  const NoSubject := "(No subject)"
  const NoContent := "(No content yet)"

  datatype Subscriber = Subscriber(username: string, email: string)

  /** The form's two fields, as named by the inputs' `name` attribute. */
  datatype Field = Subject | Body

  datatype EmailData = EmailData(subject: string, body: string)

  datatype Page = Page(form: EmailData, subscribers: seq<Subscriber>, isLoading: bool, isSending: bool)

  const Initial := Page(EmailData("", ""), [], true, false)

  /** A toast shown by the page. */
  datatype Toast = Succeeded(text: string) | Failed(text: string)

  datatype Outcome = Outcome(page: Page, trace: seq<Effect>, toasts: seq<Toast>)

  /** `fetchSubscribers`: the list is replaced on success, a toast reports a
      failure, and loading ends either way. */
  function Fetch(p: Page, reply: Http.Reply<seq<Subscriber>>): (r: Outcome)
    ensures r.trace == [Call(Http.Get, SubscribersPath)] && !r.page.isLoading
    ensures r.page.form == p.form && r.page.isSending == p.isSending
    ensures reply.Replied? ==> r.page.subscribers == reply.data && r.toasts == []
    ensures reply.Raised? ==> r.page.subscribers == p.subscribers && r.toasts == [Failed(FetchFailed)]
  {
    var call := [Call(Http.Get, SubscribersPath)];
    match Http.Settle(reply)
    case Success(data) => Outcome(p.(subscribers := data, isLoading := false), call, [])
    case Failure(_) => Outcome(p.(isLoading := false), call, [Failed(FetchFailed)])
  }

  /** The mount effect: the access check of the page, then the fetch. */
  function Mount(p: Page, flags: AdminAccess.Flags, reply: Http.Reply<seq<Subscriber>>): (r: Outcome)
    ensures !flags.isAuthenticated ==> r == Outcome(p, [Navigate(AdminAccess.AdminLogin)], [])
    ensures flags.isAuthenticated && !flags.isAdmin ==> r == Outcome(p, [Navigate(AdminAccess.Home)], [])
    ensures flags.isAuthenticated && flags.isAdmin ==> r == Fetch(p, reply)
  {
    match AdminAccess.NewsletterAccess(flags)
    case Redirect(url) => Outcome(p, [Navigate(url)], [])
    case Proceed => Fetch(p, reply)
  }

  /** `handleChange`: only the named field takes the new value. */
  function HandleChange(p: Page, field: Field, value: string): (r: Page)
    ensures field == Subject ==> r.form == EmailData(value, p.form.body)
    ensures field == Body ==> r.form == EmailData(p.form.subject, value)
    ensures r.(form := p.form) == p
  {
    match field
    case Subject => p.(form := p.form.(subject := value))
    case Body => p.(form := p.form.(body := value))
  }

  /** Edits to different fields commute. */
  lemma ChangesCommute(p: Page, a: string, b: string)
    ensures HandleChange(HandleChange(p, Subject, a), Body, b) == HandleChange(HandleChange(p, Body, b), Subject, a)
  {
  }

  /** `sendCustomEmailToAll(formData)`: the subject and body are posted as
      they are. */
  function SendRequest(form: EmailData): (r: Http.Request<EmailData>)
    ensures r.verb == Http.Post && r.path == SendPath && r.body == form
  {
    Http.Request(Http.Post, SendPath, [], form)
  }

  datatype SendOutcome = SendOutcome(page: Page, sent: Http.Request<EmailData>, toasts: seq<Toast>)

  /** `handleSubmit`: the form as it stands is posted; a success clears it,
      a failure keeps it for another try; `isSending` ends false. */
  function Submit(p: Page, reply: Http.Reply<Value>): (r: SendOutcome)
    ensures r.sent.verb == Http.Post && r.sent.path == SendPath && r.sent.body == p.form
    ensures !r.page.isSending
    ensures r.page.subscribers == p.subscribers && r.page.isLoading == p.isLoading
    ensures reply.Replied? ==> r.page.form == EmailData("", "") && r.toasts == [Succeeded(Sent)]
    ensures reply.Raised? ==> r.page.form == p.form && r.toasts == [Failed(SendFailed)]
  {
    var request := SendRequest(p.form);
    match Http.Settle(reply)
    case Success(_) => SendOutcome(p.(form := EmailData("", ""), isSending := false), request, [Succeeded(Sent)])
    case Failure(_) => SendOutcome(p.(isSending := false), request, [Failed(SendFailed)])
  }

  /** What is mailed is what was typed: after editing both fields, the send
      carries exactly that subject and body. */
  lemma SendsTypedLetter(p: Page, subject: string, body: string, reply: Http.Reply<Value>)
    ensures Submit(HandleChange(HandleChange(p, Subject, subject), Body, body), reply).sent.body == EmailData(subject, body)
  {
  }

  /** What the preview box shows. */
  datatype Preview = Placeholder | Letter(heading: string, text: string)

  function RenderPreview(form: EmailData): (r: Preview)
    ensures r.Letter? <==> form.subject != "" || form.body != ""
    ensures r.Letter? ==> r.heading == (if form.subject != "" then form.subject else NoSubject)
    ensures r.Letter? ==> r.text == (if form.body != "" then form.body else NoContent)
  {
    if Truthy(Some(form.subject)) || Truthy(Some(form.body)) then
      Letter(Or(Some(form.subject), NoSubject), Or(Some(form.body), NoContent))
    else Placeholder
  }

  /** A newsletter that was sent leaves an empty preview behind; a failed
      send keeps showing what was typed. */
  lemma PreviewAfterSubmit(p: Page, reply: Http.Reply<Value>)
    ensures reply.Replied? ==> RenderPreview(Submit(p, reply).page.form) == Placeholder
    ensures reply.Raised? ==> RenderPreview(Submit(p, reply).page.form) == RenderPreview(p.form)
  {
  }

  /** The preview of a typed subject shows that subject, whatever the body. */
  lemma PreviewShowsTypedSubject(p: Page, subject: string)
    requires subject != ""
    ensures RenderPreview(HandleChange(p, Subject, subject).form).Letter?
    ensures RenderPreview(HandleChange(p, Subject, subject).form).heading == subject
  {
  }
}

=== FILE: next_auth.dfy ===
/** `auth.ts`: the NextAuth callbacks. Signing in with Google logs in to the
    backend with the e-mail as username and the provider account id as
    password, registering first when that login fails. */
module NextAuth {
  import opened Wrappers
  import opened Js
  import Http

  const GoogleProvider := "google"
  const CallbackPath := "/auth-callback"

  datatype User = User(name: Option<string>, email: Option<string>)
  datatype Account = Account(provider: string, providerAccountId: string, accessToken: Option<string>)
  /** The JWT; only the claim the callbacks touch is represented. */
  datatype Token = Token(accessToken: Option<string>)
  datatype Session = Session(user: Option<User>, accessToken: Option<string>)

  datatype AuthBody =
    | LoginBody(username: Option<string>, password: string)
    | RegisterBody(username: Option<string>, email: Option<string>, fullName: string, password: string)

  /** The body of a successful `/login` reply. */
  datatype LoginData = LoginData(accessToken: Option<string>)

  const FormContentType := Http.Header("Content-Type", "application/x-www-form-urlencoded")

  function LoginRequest(user: User, password: string): Http.Request<AuthBody> {
    Http.Request(Http.Post, "/login", [FormContentType], LoginBody(user.email, password))
  }

  function RegisterRequest(user: User, password: string): Http.Request<AuthBody> {
    Http.Request(Http.Post, "/register", [Http.JsonContentType],
                 RegisterBody(user.email, user.email, Or(user.name, ""), password))
  }

  /** One `/login` call: the token it yields, or a throw. A reply whose body
      is `null` throws too, when `access_token` is read from it. */
  function LoginToken(reply: Http.Reply<Option<LoginData>>): (r: Result<Option<string>, Value>)
    ensures r.Success? <==> reply.Replied? && reply.data.Some?
    ensures r.Success? ==> r.value == reply.data.value.accessToken
  {
    match Http.Settle(reply)
    case Failure(e) => Failure(e)
    case Success(data) =>
      if data.None? then Failure(TypeErrorReading("access_token")) else Success(data.value.accessToken)
  }

  datatype SignInOutcome = SignInOutcome(
    requests: seq<Http.Request<AuthBody>>,
    allowed: bool,
    account: Option<Account>)

  /** Every request presents the e-mail as username and the provider account
      id as password. */
  predicate UsesProviderCredentials(requests: seq<Http.Request<AuthBody>>, user: User, account: Account) {
    forall i :: 0 <= i < |requests| ==>
      requests[i].body.username == user.email && requests[i].body.password == account.providerAccountId
  }

  function GoogleAccount(account: Option<Account>): bool {
    account.Some? && account.value.provider == GoogleProvider
  }

  /** The `signIn` callback, given the replies to the first login, the
      registration and the second login (each used only if reached). */
  function SignIn(
    user: User, account: Option<Account>,
    firstLogin: Http.Reply<Option<LoginData>>, register: Http.Reply<()>, secondLogin: Http.Reply<Option<LoginData>>
  ): (r: SignInOutcome)
    ensures !GoogleAccount(account) ==> r == SignInOutcome([], true, account)
    ensures GoogleAccount(account) ==>
              && 1 <= |r.requests| <= 3
              && r.requests[0] == LoginRequest(user, account.value.providerAccountId)
              && UsesProviderCredentials(r.requests, user, account.value)
    ensures GoogleAccount(account) && LoginToken(firstLogin).Success? ==>
              && |r.requests| == 1 && r.allowed
              && r.account == Some(account.value.(accessToken := LoginToken(firstLogin).value))
    ensures GoogleAccount(account) && LoginToken(firstLogin).Failure? ==>
              && |r.requests| >= 2
              && r.requests[1] == RegisterRequest(user, account.value.providerAccountId)
              && (register.Replied? ==> r.requests == [r.requests[0], r.requests[1], r.requests[0]])
              && (register.Raised? ==> |r.requests| == 2)
    ensures GoogleAccount(account) && LoginToken(firstLogin).Failure? && register.Replied? && LoginToken(secondLogin).Success? ==>
              r.account == Some(account.value.(accessToken := LoginToken(secondLogin).value))
    ensures !r.allowed <==>
              && GoogleAccount(account) && LoginToken(firstLogin).Failure?
              && (register.Raised? || LoginToken(secondLogin).Failure?)
    ensures !r.allowed ==> r.account == account
  {
    if !GoogleAccount(account) then SignInOutcome([], true, account)
    else
      var a := account.value;
      var login := LoginRequest(user, a.providerAccountId);
      match LoginToken(firstLogin)
      case Success(t) => SignInOutcome([login], true, Some(a.(accessToken := t)))
      case Failure(_) =>
        var registration := RegisterRequest(user, a.providerAccountId);
        match Http.Settle(register)
        case Failure(_) => SignInOutcome([login, registration], false, account)
        case Success(_) =>
          match LoginToken(secondLogin)
          case Success(t) => SignInOutcome([login, registration, login], true, Some(a.(accessToken := t)))
          case Failure(_) => SignInOutcome([login, registration, login], false, account)
  }

  /** The `jwt` callback: copy the account's token only when there is one. */
  function Jwt(token: Token, account: Option<Account>): (r: Token)
    ensures account.Some? && Truthy(account.value.accessToken) ==> r.accessToken == account.value.accessToken
    ensures !(account.Some? && Truthy(account.value.accessToken)) ==> r == token
  {
    if account.Some? && Truthy(account.value.accessToken) then Token(account.value.accessToken) else token
  }

  /** The `session` callback: the session carries the token's access token. */
  function SessionCallback(session: Session, token: Token): (r: Session)
    ensures r.accessToken == token.accessToken && r.user == session.user
  {
    session.(accessToken := token.accessToken)
  }

  /** The `redirect` callback ignores `url`. */
  function Redirect(url: string, baseUrl: string): (r: string)
    ensures |r| == |baseUrl| + |CallbackPath|
    ensures r[..|baseUrl|] == baseUrl && r[|baseUrl|..] == CallbackPath
  {
    baseUrl + CallbackPath
  }

  /** A token obtained at sign-in reaches the session through `jwt` and
      `session`, and later `jwt` calls (without an account) keep it. */
  lemma SignInTokenReachesSession(
    user: User, account: Option<Account>,
    firstLogin: Http.Reply<Option<LoginData>>, register: Http.Reply<()>, secondLogin: Http.Reply<Option<LoginData>>,
    token: Token, session: Session)
    requires var r := SignIn(user, account, firstLogin, register, secondLogin);
             GoogleAccount(account) && r.allowed && Truthy(r.account.value.accessToken)
    ensures var r := SignIn(user, account, firstLogin, register, secondLogin);
            var t := Jwt(token, r.account);
            && SessionCallback(session, t).accessToken == r.account.value.accessToken
            && Jwt(t, None) == t
  {
  }
}

=== FILE: prediction_result.dfy ===
/** `components/PredictionResult.tsx`: which panel the scan result shows,
    and the "View Detailed Analysis" click, which calls the orchestrator
    and, when it rejects, caches what it can itself before navigating. */
module PredictionResultView {
  import opened Wrappers
  import opened Js
  import opened Records
  import opened Effects
  import Http
  import Storage
  import DiseaseService

  datatype View =
    | ErrorPanel(message: string)   // message and a "Try Again" button
    | Nothing
    | Results(scanning: bool)       // skeletons while scanning, the ranking otherwise

  /** The render-state selection. `scanError` is tested for truthiness, so
      an empty message shows no error panel. */
  function Render(scanError: Option<string>, isScanning: bool, prediction: Option<PredictionResponse>): (v: View)
    ensures Truthy(scanError) <==> v.ErrorPanel?
    ensures v.ErrorPanel? ==> v.message == scanError.value
    ensures v.Nothing? <==> !Truthy(scanError) && prediction.None? && !isScanning
    ensures v.Results? ==> v.scanning == isScanning
  {
    if Truthy(scanError) then ErrorPanel(scanError.value)
    else if prediction.None? && !isScanning then Nothing
    else Results(isScanning)
  }

  function ResultsUrl(env: DiseaseService.Env, imageUrl: string): string {
    "/home/results?image=" + env.encodeUri(imageUrl)
  }

  /** One click: the effects in order, the session storage afterwards, and
      the error the async handler rejects with, if any. */
  datatype ClickOutcome = ClickOutcome(trace: seq<Effect>, session: Storage.Store, uncaught: Option<Value>)

  /** The trace contains no navigation. */
  predicate NoNavigation(trace: seq<Effect>) {
    forall i :: 0 <= i < |trace| ==> !trace[i].Navigate?
  }

  /** The catch branch of the click: cache the prediction, then try once
      more to fetch and cache the top disease's details, and navigate
      either way. Reading the top disease (line 133) sits outside the inner
      try, so an empty ranking rejects the handler there, after
      `predictionData` was written and before any navigation. */
  function Fallback(
    env: DiseaseService.Env, session: Storage.Store, prediction: PredictionResponse, imageUrl: string,
    refetchReply: Http.Reply<DiseaseDetails>): (r: ClickOutcome)
    ensures |r.trace| >= 1 && r.trace[0] == StoreWrite(SessionArea, DiseaseService.PredictionKey)
    ensures |prediction.top5| > 0 <==> r.uncaught.None?
    ensures r.uncaught.None? ==>
              && |r.trace| >= 3
              && r.trace[1] == Call(Http.Get, DiseaseService.DetailsPath(env, prediction.top5[0].disease,
                                                                       DiseaseService.DefaultLanguage))
              && r.trace[|r.trace| - 1] == Navigate(ResultsUrl(env, imageUrl))
    ensures r.uncaught.Some? ==> r.uncaught.value == TypeErrorReading("disease") && NoNavigation(r.trace)
    ensures r.uncaught.Some? || refetchReply.Raised? ==>
              r.session == DiseaseService.SavePredictionDataToSession(env, session, prediction)
    ensures r.uncaught.None? && refetchReply.Replied? ==>
              r.session == DiseaseService.SaveDiseaseDetailsToSession(env,
                             DiseaseService.SavePredictionDataToSession(env, session, prediction), refetchReply.data)
  {
    var cached := DiseaseService.SavePredictionDataToSession(env, session, prediction);
    var written := [StoreWrite(SessionArea, DiseaseService.PredictionKey)];
    if |prediction.top5| == 0 then
      ClickOutcome(written, cached, Some(TypeErrorReading("disease")))
    else
      var top := prediction.top5[0].disease;
      var refetched := written + [Call(Http.Get, DiseaseService.DetailsPath(env, top, DiseaseService.DefaultLanguage))];
      var url := ResultsUrl(env, imageUrl);
      match DiseaseService.FetchDiseaseDetails(refetchReply)
      case Success(details) =>
        ClickOutcome(refetched + [StoreWrite(SessionArea, DiseaseService.DetailsKey), Navigate(url)],
                     DiseaseService.SaveDiseaseDetailsToSession(env, cached, details), None)
      case Failure(_) =>
        ClickOutcome(refetched + [Navigate(url)], cached, None)
  }

  /** The click handler. `detailsReply` and `saveReply` answer the
      orchestrator's requests; `refetchReply` answers the fallback's own
      detail fetch. When the orchestrator rejects it has written nothing,
      so the fallback starts from the session as it was. */
  function ViewDetailedAnalysis(
    env: DiseaseService.Env, browser: DiseaseService.Browser, prediction: PredictionResponse, imageUrl: string,
    detailsReply: Http.Reply<DiseaseDetails>, saveReply: Http.Reply<()>, refetchReply: Http.Reply<DiseaseDetails>,
    now: int): (r: ClickOutcome)
    ensures var saved := DiseaseService.SavePredictionWithDetails(
                           env, browser, prediction, imageUrl, detailsReply, saveReply, now);
            && (saved.result.Success? ==>
                  r == ClickOutcome(saved.trace + [Navigate(ResultsUrl(env, imageUrl))], saved.session, None))
            && (saved.result.Failure? ==>
                  var f := Fallback(env, browser.session, prediction, imageUrl, refetchReply);
                  r == f.(trace := saved.trace + f.trace))
    ensures |prediction.top5| > 0 <==> r.uncaught.None?
    ensures r.uncaught.None? ==> r.trace[|r.trace| - 1] == Navigate(ResultsUrl(env, imageUrl))
  {
    var saved := DiseaseService.SavePredictionWithDetails(
                   env, browser, prediction, imageUrl, detailsReply, saveReply, now);
    match saved.result
    case Success(_) => ClickOutcome(saved.trace + [Navigate(ResultsUrl(env, imageUrl))], saved.session, None)
    case Failure(_) =>
      var f := Fallback(env, saved.session, prediction, imageUrl, refetchReply);
      f.(trace := saved.trace + f.trace)
  }

  /** Whatever happens in the click, `predictionData` holds the prediction
      afterwards, provided session storage accepts writes. */
  lemma ClickCachesPrediction(
    env: DiseaseService.Env, browser: DiseaseService.Browser, prediction: PredictionResponse, imageUrl: string,
    detailsReply: Http.Reply<DiseaseDetails>, saveReply: Http.Reply<()>, refetchReply: Http.Reply<DiseaseDetails>,
    now: int)
    requires DiseaseService.LawfulEnv(env) && browser.session.available
    ensures var r := ViewDetailedAnalysis(env, browser, prediction, imageUrl, detailsReply, saveReply, refetchReply, now);
            DiseaseService.GetPredictionDataFromSession(env, r.session) == Some(prediction)
  {
    var saved := DiseaseService.SavePredictionWithDetails(
                   env, browser, prediction, imageUrl, detailsReply, saveReply, now);
    DiseaseService.SavedPairReadsBack(env, browser, prediction, imageUrl, detailsReply, saveReply, now);
    if saved.result.Failure? {
      var cached := DiseaseService.SavePredictionDataToSession(env, saved.session, prediction);
      DiseaseService.SessionRoundTrip(env.predictionJson, saved.session, DiseaseService.PredictionKey, prediction);
      if |prediction.top5| > 0 && refetchReply.Replied? {
        var s := DiseaseService.SaveDiseaseDetailsToSession(env, cached, refetchReply.data);
        assert Storage.ReadOrNull(s, DiseaseService.PredictionKey) == Storage.ReadOrNull(cached, DiseaseService.PredictionKey);
      }
    }
  }

  /** Which details the results page will find: those the orchestrator
      saved, else those the fallback re-fetched, else whatever was cached
      before the click. */
  lemma ClickCachesDetails(
    env: DiseaseService.Env, browser: DiseaseService.Browser, prediction: PredictionResponse, imageUrl: string,
    detailsReply: Http.Reply<DiseaseDetails>, saveReply: Http.Reply<()>, refetchReply: Http.Reply<DiseaseDetails>,
    now: int)
    requires DiseaseService.LawfulEnv(env) && browser.session.available && |prediction.top5| > 0
    ensures var r := ViewDetailedAnalysis(env, browser, prediction, imageUrl, detailsReply, saveReply, refetchReply, now);
            var saved := DiseaseService.SavePredictionWithDetails(
                           env, browser, prediction, imageUrl, detailsReply, saveReply, now);
            var found := DiseaseService.GetDiseaseDetailsFromSession(env, r.session);
            && (saved.result.Success? ==> found == Some(detailsReply.data))
            && (saved.result.Failure? && refetchReply.Replied? ==> found == Some(refetchReply.data))
            && (saved.result.Failure? && refetchReply.Raised? ==>
                  found == DiseaseService.GetDiseaseDetailsFromSession(env, browser.session))
  {
    var saved := DiseaseService.SavePredictionWithDetails(
                   env, browser, prediction, imageUrl, detailsReply, saveReply, now);
    DiseaseService.SavedPairReadsBack(env, browser, prediction, imageUrl, detailsReply, saveReply, now);
    if saved.result.Failure? {
      var cached := DiseaseService.SavePredictionDataToSession(env, saved.session, prediction);
      if refetchReply.Replied? {
        DiseaseService.SessionRoundTrip(env.detailsJson, cached, DiseaseService.DetailsKey, refetchReply.data);
      } else {
        assert Storage.ReadOrNull(cached, DiseaseService.DetailsKey)
            == Storage.ReadOrNull(browser.session, DiseaseService.DetailsKey);
      }
    }
  }
}

=== FILE: prediction_service.dfy ===
/** `services/prediction_service.ts`: requesting a prediction for an uploaded
    image, reading one back, and the error normalisation both apply. */
module PredictionService {
  import opened Wrappers
  import opened Js
  import opened Records
  import Http

  const InvalidPrediction := "Invalid prediction response format"
  const InvalidResult := "Invalid prediction result format"
  const PredictFailed := "Failed to process image prediction"
  const ResultFailed := "Failed to fetch prediction results"

  /** A prediction body as it arrives: either field may be missing. */
  datatype PredictionBody = PredictionBody(imageUrl: Option<string>, top5: Option<seq<DiseasePrediction>>)

  /** The normalised error the service rejects with. `data` is `Undefined`
      where the source leaves it undefined. */
  datatype PredictionError = PredictionError(message: string, status: Option<int>, data: Value)

  /** A rejection of the service's promise: the normalised error, or the
      `TypeError` the normaliser throws when the caught value is
      `undefined` or `null` (it reads `error.response` without `?.`). */
  datatype Rejection = Normalized(error: PredictionError) | Crashed(thrown: Value)

  datatype PredictPayload = PredictPayload(imageUrl: string)

  /** `error.response?.data`. */
  function ResponseData(error: Value): Value {
    if error.Object? && error.response.Some? then error.response.value.data else Undefined
  }

  /** `error.response?.status`. */
  function ResponseStatus(error: Value): Option<int> {
    if error.Object? && error.response.Some? then Some(error.response.value.status) else None
  }

  /** The catch block: message from the response body, else from the error,
      else `fallback`; status and data only ever from `error.response`. */
  function Normalize(error: Value, fallback: string): (r: Rejection)
    ensures r.Crashed? <==> error.Undefined? || error.Null?
    ensures r.Normalized? && Truthy(MessageOf(ResponseData(error))) ==>
              r.error.message == MessageOf(ResponseData(error)).value
    ensures r.Normalized? && !Truthy(MessageOf(ResponseData(error))) ==>
              r.error.message == Or(MessageOf(error), fallback)
    ensures r.Normalized? && fallback != "" ==> r.error.message != ""
    ensures r.Normalized? ==> r.error.status == ResponseStatus(error) && r.error.data == ResponseData(error)
    ensures r.Normalized? && Plain(error) ==> r.error.status.None? && r.error.data.Undefined?
  {
    if error.Undefined? || error.Null? then Crashed(TypeErrorReading("response"))
    else
      var fromBody := MessageOf(ResponseData(error));
      var message := if Truthy(fromBody) then fromBody.value else Or(MessageOf(error), fallback);
      Normalized(PredictionError(message, ResponseStatus(error), ResponseData(error)))
  }

  function PredictRequest(imageUrl: string): (r: Http.Request<PredictPayload>)
    ensures r.verb == Http.Post && r.path == "/predict-image" && r.body.imageUrl == imageUrl
  {
    Http.Request(Http.Post, "/predict-image", [Http.JsonContentType], PredictPayload(imageUrl))
  }

  /** `predictImage`, given the backend's reply to `PredictRequest(imageUrl)`.
      The body is returned unchanged when it has `top_5_diseases`; the
      "invalid format" object thrown otherwise (with status 500) is caught
      by the same catch block and normalised, which drops the 500. */
  function PredictImage(reply: Http.Reply<Option<PredictionBody>>): (r: Result<PredictionBody, Rejection>)
    ensures r.Success? <==> reply.Replied? && reply.data.Some? && reply.data.value.top5.Some?
    ensures r.Success? ==> reply.data == Some(r.value)
    ensures reply.Replied? && r.Failure? ==>
              r.error == Normalized(PredictionError(InvalidPrediction, None, Undefined))
    ensures reply.Raised? ==> r == Failure(Normalize(Http.OnRejected(reply.error), PredictFailed))
  {
    var attempt: Result<PredictionBody, Value> :=
      match Http.Settle(reply)
      case Failure(e) => Failure(e)
      case Success(data) =>
        if data.Some? && data.value.top5.Some? then Success(data.value)
        else Failure(NewError(InvalidPrediction));
    match attempt
    case Success(body) => Success(body)
    case Failure(e) => Failure(Normalize(e, PredictFailed))
  }

  function ResultRequest(predictionId: string): (r: Http.Request<()>)
    ensures r.verb == Http.Get && r.path == "/predict-image/" + predictionId
  {
    Http.Request(Http.Get, "/predict-image/" + predictionId, [Http.JsonContentType], ())
  }

  /** `getPredictionResult`: the body must carry a non-empty `image_url`. */
  function GetPredictionResult(reply: Http.Reply<Option<PredictionBody>>): (r: Result<PredictionBody, Rejection>)
    ensures r.Success? <==> reply.Replied? && reply.data.Some? && Truthy(reply.data.value.imageUrl)
    ensures r.Success? ==> reply.data == Some(r.value)
    ensures reply.Replied? && r.Failure? ==>
              r.error == Normalized(PredictionError(InvalidResult, None, Undefined))
    ensures reply.Raised? ==> r == Failure(Normalize(Http.OnRejected(reply.error), ResultFailed))
  {
    var attempt: Result<PredictionBody, Value> :=
      match Http.Settle(reply)
      case Failure(e) => Failure(e)
      case Success(data) =>
        if data.Some? && Truthy(data.value.imageUrl) then Success(data.value)
        else Failure(NewError(InvalidResult));
    match attempt
    case Success(body) => Success(body)
    case Failure(e) => Failure(Normalize(e, ResultFailed))
  }

  /** The interceptor and the normaliser composed: as long as the server's
      error body has no `response` field of its own, every normalised
      rejection of `predictImage` has `status` and `data` undefined. */
  lemma PredictionErrorsLoseStatus(reply: Http.Reply<Option<PredictionBody>>)
    requires reply.Raised? ==> Http.PlainPayload(reply.error)
    ensures var r := PredictImage(reply);
            r.Failure? && r.error.Normalized? ==> r.error.error.status.None? && r.error.error.data.Undefined?
  {
    if reply.Raised? {
      Http.InterceptedErrorsArePlain(reply.error);
    }
  }

  /** The same composition for `getPredictionResult`. */
  lemma ResultErrorsLoseStatus(reply: Http.Reply<Option<PredictionBody>>)
    requires reply.Raised? ==> Http.PlainPayload(reply.error)
    ensures var r := GetPredictionResult(reply);
            r.Failure? && r.error.Normalized? ==> r.error.error.status.None? && r.error.error.data.Undefined?
  {
    if reply.Raised? {
      Http.InterceptedErrorsArePlain(reply.error);
    }
  }

  /** A server error whose body carries a message surfaces that message,
      even though its status is lost. */
  lemma ServerMessageSurvives(status: int, message: string, request: bool)
    requires message != ""
    ensures var reply: Http.Reply<Option<PredictionBody>> :=
              Http.Raised(Object(Some("Request failed"), Some(Response(status, Object(Some(message), None, false))), request));
            PredictImage(reply) == Failure(Normalized(PredictionError(message, None, Undefined)))
  {
  }
}

=== FILE: records.dfy ===
/** The records the services exchange: a ranked prediction and the
    descriptive details of one disease. Probabilities are only copied,
    never computed with, so `real` stands for JavaScript's `number`. */
module Records {

  datatype DiseasePrediction = DiseasePrediction(disease: string, probability: real)

  /** A prediction as the backend ranks it (highest probability first, by
      the backend's contract; never re-sorted or checked here). */
  datatype PredictionResponse = PredictionResponse(imageUrl: string, top5: seq<DiseasePrediction>)

  datatype DiseaseDetails = DiseaseDetails(disease: string, details: string, language: string)
}

=== FILE: save_results_service.dfy ===
/** `services/save_results_service.ts`: the durable save of one result, and
    the two identity readers the orchestrator uses. */
module SaveResultsService {
  import opened Wrappers
  import opened Js
  import opened Records
  import Http
  import Storage

  const SavePath := "/save-result"
  const SaveFailed := "Failed to save results to database. Please try again."
  const UsernameKey := "username"
  const AccessTokenKey := "access_token"

  datatype SaveResultParams = SaveResultParams(
    username: string,
    accessToken: string,
    imageUrl: string,
    prediction: PredictionResponse,
    diseaseDetails: DiseaseDetails,
    disease: string,
    details: string)

  /** The wire shapes the request body is rebuilt into. */
  datatype SavedDisease = SavedDisease(disease: string, probability: real)
  datatype SavedPrediction = SavedPrediction(imageUrl: string, top5: seq<SavedDisease>)
  datatype SavedDetails = SavedDetails(disease: string, details: string)

  /** `timestamp` is the client clock at send time, as an integer. */
  datatype SaveBody = SaveBody(
    username: string,
    imageUrl: string,
    predictionData: SavedPrediction,
    diseaseDetails: SavedDetails,
    disease: string,
    details: string,
    timestamp: int)

  /** `prediction.top_5_diseases.map(d => ({disease, probability}))`. */
  function SaveRanking(ranking: seq<DiseasePrediction>): (r: seq<SavedDisease>)
    ensures |r| == |ranking|
    ensures forall i :: 0 <= i < |r| ==>
              r[i].disease == ranking[i].disease && r[i].probability == ranking[i].probability
  {
    seq(|ranking|, i requires 0 <= i < |ranking| => SavedDisease(ranking[i].disease, ranking[i].probability))
  }

  /** Reading a saved ranking back (as the history page does). */
  function LoadRanking(saved: seq<SavedDisease>): (r: seq<DiseasePrediction>)
    ensures |r| == |saved|
  {
    seq(|saved|, i requires 0 <= i < |saved| => DiseasePrediction(saved[i].disease, saved[i].probability))
  }

  /** The request `saveResultsToDB` sends at clock `now`. */
  function SaveRequest(p: SaveResultParams, now: int): (r: Http.Request<SaveBody>)
    ensures r.verb == Http.Post && r.path == SavePath
    ensures Http.Header("Authorization", "Bearer " + p.accessToken) in r.headers
    ensures Http.JsonContentType in r.headers
    ensures r.body.username == p.username && r.body.disease == p.disease && r.body.details == p.details
    ensures r.body.imageUrl == p.imageUrl && r.body.predictionData.imageUrl == p.prediction.imageUrl
    ensures r.body.diseaseDetails == SavedDetails(p.diseaseDetails.disease, p.diseaseDetails.details)
    ensures r.body.timestamp == now
  {
    var body := SaveBody(
      p.username,
      p.imageUrl,
      SavedPrediction(p.prediction.imageUrl, SaveRanking(p.prediction.top5)),
      SavedDetails(p.diseaseDetails.disease, p.diseaseDetails.details),
      p.disease,
      p.details,
      now);
    Http.Request(Http.Post, SavePath,
                 [Http.JsonContentType, Http.Header("Authorization", "Bearer " + p.accessToken)], body)
  }

  /** The saved prediction is the input prediction: same image reference,
      same ranking in the same order. Only the detail's `language` is lost. */
  lemma {:induction false} SavedPredictionRoundTrip(p: SaveResultParams, now: int)
    ensures var saved := SaveRequest(p, now).body.predictionData;
            PredictionResponse(saved.imageUrl, LoadRanking(saved.top5)) == p.prediction
  {
    var saved := SaveRequest(p, now).body.predictionData;
    var back := LoadRanking(saved.top5);
    assert |back| == |p.prediction.top5|;
    forall i | 0 <= i < |back|
      ensures back[i] == p.prediction.top5[i]
    {
      assert back[i] == DiseasePrediction(saved.top5[i].disease, saved.top5[i].probability);
    }
  }

  /** `saveResultsToDB` given the reply to `SaveRequest`: any failure becomes
      one fixed error, whatever the server or the interceptor said. */
  function SaveResultsToDB<T>(reply: Http.Reply<T>): (r: Result<(), Value>)
    ensures r.Success? <==> reply.Replied?
    ensures r.Failure? ==> r.error == NewError(SaveFailed)
  {
    match Http.Settle(reply)
    case Success(_) => Success(())
    case Failure(_) => Failure(NewError(SaveFailed))
  }

  /** `getUsernameFromSession`: the stored string, or null when it is absent
      or storage throws. */
  function GetUsernameFromSession(session: Storage.Store): (r: Option<string>)
    ensures r.Some? <==> session.available && UsernameKey in session.entries
    ensures r.Some? ==> r.value == session.entries[UsernameKey]
  {
    Storage.ReadOrNull(session, UsernameKey)
  }

  /** `getAccessTokenFromLocalStorage`, likewise over local storage. */
  function GetAccessTokenFromLocalStorage(local: Storage.Store): (r: Option<string>)
    ensures r.Some? <==> local.available && AccessTokenKey in local.entries
    ensures r.Some? ==> r.value == local.entries[AccessTokenKey]
  {
    Storage.ReadOrNull(local, AccessTokenKey)
  }
}

=== FILE: storage.dfy ===
/** Browser Web Storage (`sessionStorage`, `localStorage`) as a string map.
    Access can be refused as a whole (storage disabled, private mode, quota):
    then every call throws. */
module Storage {
  import opened Wrappers
  import opened Js

  datatype Store = Store(entries: map<string, string>, available: bool)

  /** The `DOMException` an unavailable storage throws (wording is engine-specific). */
  const Refused := NewError("The operation is insecure.")

  /** `getItem(key)`: the stored string, `null` when absent, or a throw. */
  function GetItem(s: Store, key: string): (r: Result<Option<string>, Value>)
    ensures r.Success? <==> s.available
    ensures r.Success? ==> (r.value.Some? <==> key in s.entries)
    ensures r.Success? && r.value.Some? ==> r.value.value == s.entries[key]
  {
    if !s.available then Failure(Refused)
    else if key in s.entries then Success(Some(s.entries[key]))
    else Success(None)
  }

  /** `setItem(key, value)`. */
  function SetItem(s: Store, key: string, value: string): (r: Result<Store, Value>)
    ensures r.Success? <==> s.available
    ensures r.Success? ==> r.value.available && r.value.entries.Keys == s.entries.Keys + {key}
    ensures r.Success? ==> r.value.entries[key] == value
    ensures r.Success? ==> forall k :: k in s.entries && k != key ==> r.value.entries[k] == s.entries[k]
  {
    if s.available then Success(Store(s.entries[key := value], true)) else Failure(Refused)
  }

  /** `removeItem(key)`. */
  function RemoveItem(s: Store, key: string): (r: Result<Store, Value>)
    ensures r.Success? <==> s.available
    ensures r.Success? ==> r.value.available && r.value.entries.Keys == s.entries.Keys - {key}
    ensures r.Success? ==> forall k :: k in r.value.entries ==> r.value.entries[k] == s.entries[k]
  {
    if s.available then Success(Store(s.entries - {key}, true)) else Failure(Refused)
  }

  /** `getItem` that treats a throw as `null`, as every reader in the
      application's services does. */
  function ReadOrNull(s: Store, key: string): (r: Option<string>)
    ensures r.Some? <==> s.available && key in s.entries
    ensures r.Some? ==> r.value == s.entries[key]
  {
    match GetItem(s, key)
    case Success(v) => v
    case Failure(_) => None
  }

  /** `setItem` whose throw is caught and logged: the store is left as it was. */
  function WriteOrKeep(s: Store, key: string, value: string): (r: Store)
    ensures s.available ==> ReadOrNull(r, key) == Some(value)
    ensures !s.available ==> r == s
    ensures forall k :: k != key ==> ReadOrNull(r, k) == ReadOrNull(s, k)
  {
    match SetItem(s, key, value)
    case Success(t) => t
    case Failure(_) => s
  }

  lemma SetThenGet(s: Store, key: string, value: string)
    requires s.available
    ensures GetItem(SetItem(s, key, value).value, key) == Success(Some(value))
  {
  }

  lemma RemoveThenGet(s: Store, key: string)
    requires s.available
    ensures GetItem(RemoveItem(s, key).value, key) == Success(None)
  {
  }
}

=== FILE: wrappers.dfy ===
/** Failure-compatible wrappers used throughout the model: `Option` for
    JavaScript's `null`/`undefined`, `Result` for a promise that resolves
    or rejects. */
module Wrappers {

  datatype Option<+T> = None | Some(value: T) {

    /** The value, or `default` when absent. */
    function GetOr(default: T): T {
      match this
      case Some(v) => v
      case None => default
    }
  }

  datatype Result<+R, +E> = Success(value: R) | Failure(error: E) {

    predicate IsFailure() {
      Failure?
    }

    function PropagateFailure<U>(): Result<U, E>
      requires Failure?
    {
      Failure(error)
    }

    function Extract(): R
      requires Success?
    {
      value
    }
  }
}

=== FILE: xray_slider.dfy ===
/** `components/XRaySlider.tsx`: the hero slider over four slides, with an
    animation lock that drops every move while a transition runs. The
    interval and timeout that drive auto-play and unlock are events here. */
module XRaySlider {

  const SlideCount := 4

  datatype Slider = Slider(current: int, autoPlaying: bool, animating: bool)

  /** The initial state: first slide, auto-play on, unlocked. */
  const Initial := Slider(0, true, false)

  predicate Valid(s: Slider) {
    0 <= s.current < SlideCount
  }

  function NextIndex(i: int): int {
    if i == SlideCount - 1 then 0 else i + 1
  }

  function PrevIndex(i: int): int {
    if i == 0 then SlideCount - 1 else i - 1
  }

  /** `goToNextSlide` (also what each auto-play tick calls). */
  function Next(s: Slider): (r: Slider)
    ensures s.animating ==> r == s
    ensures !s.animating ==> r == s.(current := NextIndex(s.current), animating := true)
    ensures Valid(s) ==> Valid(r) && (!s.animating ==> r.current == (s.current + 1) % SlideCount)
  {
    if s.animating then s else s.(current := NextIndex(s.current), animating := true)
  }

  /** `goToPrevSlide`. */
  function Prev(s: Slider): (r: Slider)
    ensures s.animating ==> r == s
    ensures !s.animating ==> r == s.(current := PrevIndex(s.current), animating := true)
    ensures Valid(s) ==> Valid(r) && (!s.animating ==> r.current == (s.current + SlideCount - 1) % SlideCount)
  {
    if s.animating then s else s.(current := PrevIndex(s.current), animating := true)
  }

  /** `goToSlide(index)`: no-op while animating or when already there. The
      indicator buttons only ever pass 0..3. */
  function GoTo(s: Slider, index: int): (r: Slider)
    ensures s.animating || index == s.current ==> r == s
    ensures !s.animating && index != s.current ==> r == s.(current := index, animating := true)
    ensures Valid(s) && 0 <= index < SlideCount ==> Valid(r)
  {
    if s.animating || index == s.current then s else s.(current := index, animating := true)
  }

  /** The one-second timeout after a move. */
  function AnimationEnd(s: Slider): (r: Slider)
    ensures !r.animating && r.current == s.current && r.autoPlaying == s.autoPlaying
  {
    s.(animating := false)
  }

  /** The auto-play interval firing: a tick only exists while auto-play is on. */
  function Tick(s: Slider): (r: Slider)
    ensures r.autoPlaying == s.autoPlaying
    ensures !s.autoPlaying || s.animating ==> r == s
    ensures s.autoPlaying && !s.animating ==> r.animating && r.current == NextIndex(s.current)
    ensures Valid(s) ==> Valid(r)
    ensures Valid(s) && s.autoPlaying && !s.animating ==> r.current == (s.current + 1) % SlideCount
  {
    if s.autoPlaying then Next(s) else s
  }

  /** The play/pause button. */
  function ToggleAutoPlay(s: Slider): (r: Slider)
    ensures r.autoPlaying == !s.autoPlaying && r.current == s.current && r.animating == s.animating
  {
    s.(autoPlaying := !s.autoPlaying)
  }

  /** Next then prev, letting the animation finish in between, restores the slide. */
  lemma NextThenPrev(s: Slider)
    requires Valid(s) && !s.animating
    ensures AnimationEnd(Prev(AnimationEnd(Next(s)))) == s
  {
  }

  /** Prev then next, likewise. */
  lemma PrevThenNext(s: Slider)
    requires Valid(s) && !s.animating
    ensures AnimationEnd(Next(AnimationEnd(Prev(s)))) == s
  {
  }

  /** `k` completed moves forward: next, then the animation end. */
  function Advance(s: Slider, k: nat): Slider
    decreases k
  {
    if k == 0 then s else Advance(AnimationEnd(Next(s)), k - 1)
  }

  /** `k` completed forward moves land on slide `(i + k) mod 4`, so a full
      cycle of four returns to the start. */
  lemma {:induction false} AdvanceWraps(s: Slider, k: nat)
    requires Valid(s) && !s.animating
    ensures var r := Advance(s, k);
            Valid(r) && !r.animating && r.current == (s.current + k) % SlideCount && r.autoPlaying == s.autoPlaying
    decreases k
  {
    if k > 0 {
      var t := AnimationEnd(Next(s));
      AdvanceWraps(t, k - 1);
      assert t.current == (s.current + 1) % SlideCount;
    }
  }

  /** Every reachable state is valid. */
  datatype Event = NextClick | PrevClick | DotClick(index: int) | IntervalTick | Unlock | Toggle

  function Step(s: Slider, e: Event): Slider {
    match e
    case NextClick => Next(s)
    case PrevClick => Prev(s)
    case DotClick(i) => GoTo(s, i)
    case IntervalTick => Tick(s)
    case Unlock => AnimationEnd(s)
    case Toggle => ToggleAutoPlay(s)
  }

  function Run(s: Slider, events: seq<Event>): Slider
    decreases |events|
  {
    if events == [] then s else Run(Step(s, events[0]), events[1..])
  }

  /** Dot clicks pass indices of existing slides. */
  predicate DotsInRange(events: seq<Event>) {
    forall i :: 0 <= i < |events| && events[i].DotClick? ==> 0 <= events[i].index < SlideCount
  }

  lemma {:induction false} RunStaysValid(s: Slider, events: seq<Event>)
    requires Valid(s) && DotsInRange(events)
    ensures Valid(Run(s, events))
    decreases |events|
  {
    if events != [] {
      assert DotsInRange(events[1..]) by {
        forall i | 0 <= i < |events[1..]| && events[1..][i].DotClick?
          ensures 0 <= events[1..][i].index < SlideCount
        {
          assert events[1..][i] == events[i + 1];
        }
      }
      RunStaysValid(Step(s, events[0]), events[1..]);
    }
  }
}
